=== FILE: README.md ===
# PO report reconciliation, modelled in Dafny

This project models the core of a purchase-order (PO) reconciliation tool. The tool fetches a
multi-sheet PO workbook from an Oracle BI Publisher scheduler and derives three CSV reports from it:

- **Combined.** Every sheet appended under the first sheet's header.
- **Processed.** An aggregate per 8-field key, with a conversion rate, duplicate invoice lines
  zeroed, and `diff` / `diff InSAR`.
- **ProcessedDetailed.** Every combined row with a duplicate index, adjusted amounts and per-row
  conversions into SAR.

The tool also covers the decision logic of the fetcher: job-id extraction, status polling,
instance-id resolution, output selection and base64 padding.

Both processor implementations are modelled: the original one (`PO_report_processor.py`) and the
memory-optimised copy (`PO_report_processor_optimized.py`). They are related by lemmas.

| file | module | models |
|---|---|---|
| wrappers.dfy | `Wrappers` | `Option` and `Result` |
| text.dfy | `Text` | `str.strip`, ASCII `upper`, `replace('-', '')`, `int()` / `str()` on integers |
| tables.dfy | `Tables` | data frames (labels over rows of cells), `drop(columns=…)`, the three `insert` calls of the provenance columns |
| ordering.dfy | `Ordering` | the total order `groupby(sort=True)` sorts keys by |
| records.dfy | `Records` | the eleven labels the reports read, and the row-to-record reading |
| grouping.dfy | `Grouping` | `groupby(...).cumcount()` |
| combiner.dfy | `Combiner` | `_combine_excel_sheets` |
| aggregate.dfy | `Aggregation` | `_create_processed_report` on records |
| detail.dfy | `Detail` | `_create_ProcessedDetailed_report` on records |
| processor.dfy | `Processor` | `process_po_report`: metadata columns, both reports of the stamped frame |
| naming.dfy | `Naming` | the download file names of `save_reports_to_csv` / `save_reports_streaming` |
| streaming.dfy | `Streaming` | `process_po_report_streaming`, `_combine_excel_sheets_streaming`, `save_reports_streaming` |
| fetcher.dfy | `Fetcher` | `_schedule_report` job-id extraction, `_wait_for_completion`, `_resolve_instance_id`, `_download_output` |

**Data model.**
- A cell is `Blank` (pandas' NaN), `Num(real)` or `Text(string)`.
- A table is a sequence of labels plus rows of cells.
- Amounts are exact `real`s.
- A quotient by zero, which pandas renders as an infinity or NaN, is a missing value (`None`, shown
  as a blank cell).
- Every pandas failure on the modelled path is an `Err` of `ReportError`. The failures are:
  - a missing label (`KeyError`);
  - a duplicate inserted label (`ValueError`);
  - text in an arithmetic column (`TypeError`; where pandas skips the operation because the other operand is NaN, the model still fails, see `Processor.DetailedOf` below);
  - a `Po Number` column mixing numbers and text, which `sort_values` cannot order.
- Clocks are parameters. Every generation time and file-name timestamp is passed in. The fetcher's
  wall clock becomes a step counter: the `k`-th status check happens `k * interval` seconds after
  the start.
- The remote calls' replies are parameters too. `replies(k)` is the reply of the `k`-th status query.

**Behaviour of the source worth noting:**
- A failing status query is not caught by `_wait_for_completion` (`PO_report_fetcher.py:199-222`
  has no handler around it). It propagates as `StatusQueryFailed`; the loop does not retry it.
- The fallback instance id of `_resolve_instance_id` (`PO_report_fetcher.py:178-181`) is a plain
  string. The model tags it `Guessed` so that callers can tell it from a listed one; the source
  only prints a message.
- The optimised pipeline reads the clock once per stage, so its three reports may carry different
  generation times. `Streaming.ProcessStreaming` takes three times, and it equals the original
  pipeline when they coincide.

## Model

| member | source | states |
|---|---|---|
| Text.TrimSpec | PO_report_processor.py:75 | `strip()` yields the slice of the input between its leading and its trailing whitespace: everything removed is whitespace, and the result neither starts nor ends with whitespace |
| Text.RemoveAllAppend | PO_report_processor.py:214-215 | `replace('-', '')` works piece by piece: removal from a concatenation is the concatenation of the removals, so the kept characters stay in order |
| Text.TrimIdempotent | PO_report_processor.py:75 | stripping a label twice is stripping it once |
| Text.IntRoundTrip | PO_report_fetcher.py:179 | `int(str(n)) == n` for every integer `n` |
| Text.ParseNegative | PO_report_fetcher.py:179 | `int()` reads a minus sign followed by digits as the negated value of the digits |
| Text.SeparatorNotSkipped | PO_report_fetcher.py:179 | `int()` skips surrounding whitespace except the four ASCII separators U+001C–U+001F: a separator before digits is stripped by `strip()` but makes `int()` fail |
| Combiner.ReadWithHeader | PO_report_processor.py:74-76 | the first sheet's first row gives the (stripped) labels; its other rows are the data, each padded to the sheet's width with blank cells |
| Combiner.LabelsTrimmed | PO_report_processor.py:75 | every label of the combined frame is already stripped: stripping it again changes nothing |
| Combiner.AppendSheets | PO_report_processor.py:82-91 | every appended row has the first sheet's width; every skip records a sheet whose width differs |
| Combiner.AppendIsFilterThenConcat | PO_report_processor.py:82-91 | the loop appends exactly the rows of the later sheets whose width matches, in sheet order, and skips exactly the others |
| Combiner.Combine | PO_report_processor.py:74-96 | fails exactly on a workbook without sheets; the result keeps the first sheet's labels and begins with its rows |
| Combiner.CombineSpec | PO_report_processor.py:74-94 | the combined frame is the first sheet's rows followed by the rows of every later sheet of matching width, in order; its row count is their sum; the skips are exactly the other later sheets, in order, with the expected and actual widths |
| Tables.DropColumns | PO_report_processor.py:110 | dropping raises on a missing label; otherwise exactly the other labels remain, in order, with their cells |
| Tables.AddStamp | PO_report_processor.py:36-38 | inserting the three provenance columns raises when a label is taken; otherwise every row is prefixed with the three values |
| Tables.DropUndoesStamp | PO_report_processor.py:110 | dropping the provenance columns right after inserting them gives back the original frame |
| Records.Extract | PO_report_processor.py:113-132 | reading records fails exactly when a label the reports read is missing or a row holds text in one of the four arithmetic columns; otherwise each record carries its row unchanged and the row's cells under the eleven labels |
| Ordering.CellsLessTransitive | PO_report_processor.py:135 | the key order the groups are sorted by is transitive |
| Ordering.CellsLessTotal | PO_report_processor.py:135 | any two different keys are ordered one way or the other |
| Grouping.CumCount | PO_report_processor.py:148 | `cumcount()` gives each row the number of earlier rows with the same key |
| Grouping.CumCountByCounting | PO_report_processor.py:148 | the one-pass counting-map algorithm computes the same numbers |
| Grouping.FirstOfGroup | PO_report_processor.py:151 | a row's count is 0 exactly when no earlier row has its key |
| Grouping.CountGrows | PO_report_processor.py:181-186 | along the rows of one key the count strictly increases |
| Grouping.EarlierCountsRows | PO_report_processor.py:181-186 | a row's count is the size of the set of earlier positions with its key |
| Aggregation.GroupSum | PO_report_processor.py:135 | grouping yields strictly key-sorted groups, one per distinct key, each holding the sums over exactly the rows with its key |
| Aggregation.Aggregate | PO_report_processor.py:113-164 | the report fails exactly on mixed PO numbers; otherwise it has one row per distinct key (no more rows than input), with the key's sums, in key order |
| Aggregation.AggregateOneRowPerKey | PO_report_processor.py:131-135 | the report's keys are exactly the distinct keys of the filled input, each once |
| Aggregation.AggregatePoOrder | PO_report_processor.py:135 | report rows are in non-decreasing `Po Number` order |
| Aggregation.Rate | PO_report_processor.py:138-142 | the rate is 1 when both currency totals are 0, and otherwise satisfies rate × transaction = functional (missing when the transaction total alone is 0) |
| Aggregation.Summarize | PO_report_processor.py:150-162 | a repeated invoice line shows 0 in both line amounts; `diff` is the shown line amount minus the amount received; `diff InSAR` is 0 for the two exempt POs |
| Aggregation.AggregateZeroesRepeatedLines | PO_report_processor.py:144-155 | only the first report row of each (PO, invoice, invoice line) keeps its line amounts; every later one shows 0 in both |
| Aggregation.AggregateAmounts | PO_report_processor.py:157-162 | on every report row: the guarded rate, `diff = line − received`, and `diff InSAR` = 0 for the exempt POs and `diff × rate` otherwise |
| Detail.Quotient | PO_report_processor.py:197 | the per-row rate exists exactly when both amounts do and the divisor is nonzero, and then rate × transaction = functional |
| Detail.Detail | PO_report_processor.py:188-203 | adjusted amounts are 0 exactly for `Dup_ind > 1`; rate, received-in-SAR and GRN follow the formulas, with blanks read as 0 in the GRN difference |
| Detail.Detailed | PO_report_processor.py:180-186 | `Dup_ind` is `cumcount() + 1` over (PO, invoice, invoice line, line amount) |
| Detail.DetailedRows | PO_report_processor.py:178-186 | the report keeps every row in order; `Dup_ind` is 1 plus the number of earlier rows with the same four fields |
| Detail.DetailedDupIndex | PO_report_processor.py:181-194 | `Dup_ind` is 1 exactly on the first row of a key and strictly increases along that key's rows |
| Detail.RenderDetailed | PO_report_processor.py:178-205 | the detailed frame is the input frame's labels and cells followed by the six appended columns |
| Detail.DetailCellsLabelled | PO_report_processor.py:181-203 | the cell under each appended label (`Dup_ind`, `Line_amount_adj`, `Invoice_line_amount_in_sar`, `conversion_rate`, `Amount_recieved_in_SAR`, `GRN_amount_in_SAR`) is the field computed for that label |
| Processor.AggCellsLabelled | PO_report_processor.py:113-159 | the cell under each label of the aggregated report (the eight keys, the three sums, `conversion rate`, `diff`, `diff InSAR`) is the field computed for that label |
| Processor.Processed | PO_report_processor.py:99-164 | the aggregated report fails exactly when the records cannot be read or the PO numbers are mixed |
| Processor.DetailedOf | PO_report_processor.py:167-205 | the detailed report fails exactly when the records cannot be read; otherwise it is the input's rows, in order, each followed by the appended cells of its detailed record (`Dup_ind` from `cumcount`, the adjusted amounts, rate, SAR and GRN amounts) |
| Processor.CreateProcessed | PO_report_processor.py:109-110 | deriving the aggregate raises when a provenance label is missing, and its result has no provenance label |
| Processor.CreateDetailed | PO_report_processor.py:177-178 | deriving the detailed report raises when a provenance label is missing, and its result has no provenance label |
| Processor.StampIrrelevant | PO_report_processor.py:36-49 | both reports of the stamped combined frame equal the reports of the unstamped frame |
| Processor.DerivedStampsSucceed | PO_report_processor.py:43-54 | stamping a derived report never raises |
| Processor.ProcessReport | PO_report_processor.py:31-56 | a run returns the combined frame stamped `Combined` and its two reports stamped `Processed` / `ProcessedDetailed`, all with one date range and generation time |
| Processor.ProcessReportFails | PO_report_processor.py:31-56 | a run fails exactly on no sheets, a provenance label already in the data, unreadable records, or mixed PO numbers |
| Naming.Head | PO_report_processor.py:214-224 | the head is the report kind, then `_PO_Report_`, the from-date without dashes, `_to_`, the to-date without dashes and `_`; it contains no `-` |
| Naming.FileName | PO_report_processor.py:213-224 | a name starts with its report kind, ends with the timestamp and `.csv`, and contains `-` only if the timestamp does |
| Naming.FileNameSplits | PO_report_processor.py:213-224 | a name is its head followed by the timestamp and `.csv` |
| Naming.FileNamesDistinct | PO_report_processor.py:222-224 | the three reports of one run never share a name |
| Naming.FileNameDeterminesStamp | PO_report_processor.py:213-224 | for fixed kind and dates the name determines the timestamp |
| Naming.SaveReports | PO_report_processor.py:217-226 | the saved map has exactly three entries, each report under its own name |
| Streaming.CombineStreaming | PO_report_processor_optimized.py:48-102 | stamping and writing sheet by sheet gives exactly the stamped combination of the original combiner |
| Streaming.ProcessStreaming | PO_report_processor_optimized.py:27-45 | the result has exactly the keys `combined`, `processed`, `detailed`; both reports derive from the combined output; it fails exactly when the original run does and agrees with it when the generation times coincide |
| Streaming.SaveStreaming | PO_report_processor_optimized.py:248-268 | saving succeeds exactly when all three results are present and then equals the original's three named files |
| Fetcher.JobIdOf | PO_report_fetcher.py:137-144 | the job id is the string reply itself, else `requestId`, else `jobId`, else the reply's string form |
| Fetcher.Classify | PO_report_fetcher.py:211-220 | SUCCESS/PROBLEM end polling as done, FAILED/CANCELLED/CANCELED/SKIPPED as failed, after upper-casing; anything else, a missing status included, polls again |
| Fetcher.ClassifyIgnoresCase | PO_report_fetcher.py:212 | a status and its upper-cased spelling get the same verdict |
| Fetcher.ResolveInstance | PO_report_fetcher.py:159-181 | the first listed instance wins, list or single item; otherwise the result is `str(int(job_id) + 1)`, which reads back as the job id plus one, or the job id is not an integer and the call fails |
| Fetcher.WaitFromSpec | PO_report_fetcher.py:199-222 | from any check on: every query is within the timeout; each non-terminal reply gets exactly one sleep; a timeout makes no further query; otherwise the first terminal reply decides the result |
| Fetcher.WaitSpec | PO_report_fetcher.py:199-222 | the whole loop: sleeps = non-terminal replies before the first terminal one, and a timeout happens only past the timeout |
| Fetcher.WaitForCompletion | PO_report_fetcher.py:199-222 | the loop as written computes the recursive definition |
| Fetcher.TwoRunningThenSuccess | PO_report_fetcher.py:211-222 | `Running`, `Running`, `Success` one second apart finish after exactly two sleeps and three queries |
| Fetcher.SelectOutput | PO_report_fetcher.py:242-255 | the first descriptor's id is taken; no descriptor, or a missing or empty id, is an error |
| Fetcher.Pad | PO_report_fetcher.py:267-270 | the padded text has a length divisible by 4, starts with the original, appends at most three `=`, and leaves aligned text alone |
| Fetcher.PadIsShortest | PO_report_fetcher.py:268-270 | no shorter padding reaches a multiple of 4 |
| Fetcher.PadIdempotent | PO_report_fetcher.py:267-270 | padding twice is padding once |
| Fetcher.Prepare | PO_report_fetcher.py:267-271 | text is padded with `=` (as `Pad`) before decoding; bytes pass through unchanged |

## Left out

- Excel and CSV encoding: reading workbooks (`pd.ExcelFile`, `read_excel`), CSV serialisation and the optimised pipeline's CSV round trip and chunked re-reading are not modelled. A sheet is a grid of cells, and re-reading the written CSV is taken to give back the same frame. pandas' type inference on re-reading can turn text that looks numeric into a number; that is not modelled.
- Floating point: amounts are exact reals. Rounding, NaN propagation and the infinities of a division by zero are not modelled; such a quotient is a missing value.
- Aggregation.Aggregate: keeps the key order of `groupby(sort=True)` and treats the following `sort_values(by='Po Number')` as the identity. That sort is numpy's unstable quicksort, so among rows with equal PO numbers the source's order, and with it which row of an invoice line counts as first, is not guaranteed to be the key order.
- Aggregation.GroupSum: orders key cells of different kinds by a fixed total order (blank, then numbers, then text, text by code point). pandas' ordering of mixed-type key columns other than `Po Number` is not modelled.
- Detail.Detailed: groups a blank key field as a value of its own. pandas' `groupby` drops NaN keys, leaving `Dup_ind` empty on such rows.
- Processor.DetailedOf: also fails when `POCharge A/c`, `Supplier` or `Currency` is missing. The source's detailed report reads none of these. It also fails on text in `Amount in Functional Currency` when the same row's `Amount in transaction Currency` is blank, or the reverse. pandas divides an object column only where both operands are present, so the source gives that row a NaN `conversion_rate` and does not raise. In a whole run the aggregated report already fails on such frames (a missing label; or text that, once blanks are filled with 0 at `PO_report_processor.py:132`, meets a number in the sum or the division), so `Processor.ProcessReport` is unaffected.
- Processor.Processed: also fails on text in `Line Amount`. The source's aggregate groups on that column and zeroes it on every row after the first of its (PO, invoice, invoice line) before subtracting, so it fails only when the text reaches the subtraction. The source's detailed report subtracts the line amount of the first row of every detail key, which carries the same text, so a whole run fails on such a frame in the source too and `Processor.ProcessReport` is unaffected.
- Derived column labels (`conversion rate`, `diff`, `Dup_ind`, …) are assumed not to collide with labels of the input. pandas would overwrite such a column.
- Text in an arithmetic column is one error (`NonNumeric`). The exact pandas exception and the point where it is raised are not modelled.
- Combiner.ReadWithHeader: a header name that repeats keeps its exact label. `read_excel` renames the later copies `X.1`, `X.2`, …. The values the reports read agree, because a label is looked up at its first occurrence, but the labels of the later copies in the output differ. Labels that become equal only through stripping stay equal in both.
- Combiner.Label: a blank or non-text header cell gets the empty label. pandas names such a column `Unnamed: <n>` or keeps the number, and `str.strip` turns a non-text label into NaN.
- Fetcher.Classify: `upper()` is modelled on ASCII letters only. Python's full Unicode upper-casing (for example `ſ` to `S`) is not.
- Fetcher.ResolveInstance: a reply whose `item` attribute holds `None`, or a list starting with `None`, is not modelled. The source wraps such an item as `[None]` and returns `None` as the instance id; the model's replies carry only string ids.
- Fetcher.ResolveInstance: `int()` is modelled for ASCII digits with an optional sign and surrounding whitespace (Python's whitespace without the four ASCII separators U+001C–U+001F, which `int()` does not skip). Underscores and non-ASCII digits, which Python also accepts, are not.
- Fetcher.JobIdOf: an attribute that exists but holds `None` is not distinguished from a missing one.
- Fetcher.WaitFromSpec: the clock is a step counter. The time a status query itself takes is not counted, and a zero poll interval, under which the loop spins without sleeping, is excluded.
- The remote service: the SOAP/zeep clients, credentials, the schedule request payload, `getDocumentData` and `base64.b64decode` itself are not modelled. Only the padding before decoding is.
- `run_po_report` and `download_po_report` only chain the modelled steps with remote calls, and are not modelled.
- The Streamlit front end (`app.py`), file cleanup (`cleanup.py`), `gc.collect`, the progress messages that are printed, and the default arguments computed from the clock at import time are not part of this model.

=== FILE: aggregate.dfy ===
/** The aggregated ("Processed") report: one row per distinct grouping key with summed amounts,
    ordered by PO number, with conversion rate, repeated invoice lines zeroed, and differences. */
module Aggregation {
  import opened Wrappers
  import opened Tables
  import opened Ordering
  import opened Records
  import opened Grouping

  /** The eight grouping keys of a row after `fillna(0)`. */
  datatype Key = Key(
    po: Cell, account: Cell, supplier: Cell, currency: Cell,
    invoice: Cell, invoiceLine: Cell, lineAmount: real, lineFunctional: Cell)

  /** The three summed amounts: received, in transaction currency, in functional currency. */
  datatype Sums = Sums(received: real, transaction: real, functional: real) {
    function Plus(other: Sums): Sums {
      Sums(received + other.received, transaction + other.transaction, functional + other.functional)
    }
  }

  const Zero := Sums(0.0, 0.0, 0.0)

  /** `fillna(0)` on one cell. */
  function Fill(c: Cell): Cell {
    if c.Blank? then Num(0.0) else c
  }

  function KeyOf(x: Record): Key {
    Key(Fill(x.po), Fill(x.account), Fill(x.supplier), Fill(x.currency),
        Fill(x.invoice), Fill(x.invoiceLine), x.lineAmount.GetOr(0.0), Fill(x.lineFunctional))
  }

  function AmountsOf(x: Record): Sums {
    Sums(x.received.GetOr(0.0), x.transaction.GetOr(0.0), x.functional.GetOr(0.0))
  }

  // ---------------------------------------------------------------------------------------------
  // The order groupby(sort=True) emits groups in

  function KeyCells(k: Key): seq<Cell> {
    [k.po, k.account, k.supplier, k.currency, k.invoice, k.invoiceLine, Num(k.lineAmount), k.lineFunctional]
  }

  predicate KeyLess(a: Key, b: Key) {
    CellsLess(KeyCells(a), KeyCells(b))
  }

  lemma KeyLessIrreflexive(a: Key)
    ensures !KeyLess(a, a)
  {
    CellsLessIrreflexive(KeyCells(a));
  }

  lemma KeyLessTransitive(a: Key, b: Key, c: Key)
    requires KeyLess(a, b) && KeyLess(b, c)
    ensures KeyLess(a, c)
  {
    CellsLessTransitive(KeyCells(a), KeyCells(b), KeyCells(c));
  }

  lemma KeyLessTotal(a: Key, b: Key)
    requires a != b
    ensures KeyLess(a, b) || KeyLess(b, a)
  {
    CellsLessTotal(KeyCells(a), KeyCells(b));
  }

  /** Keys ordered this way are ordered by PO number first. */
  lemma KeyLessPo(a: Key, b: Key)
    requires KeyLess(a, b)
    ensures a.po == b.po || CellLess(a.po, b.po)
  {
    assert KeyCells(a)[0] == a.po && KeyCells(b)[0] == b.po;
  }

  // ---------------------------------------------------------------------------------------------
  // Grouping and summing

  datatype Group = Group(key: Key, sums: Sums)

  /** Strictly increasing keys: in particular no key twice. */
  ghost predicate Sorted(gs: seq<Group>) {
    forall i, j :: 0 <= i < j < |gs| ==> KeyLess(gs[i].key, gs[j].key)
  }

  function KeySet(gs: seq<Group>): set<Key> {
    set i | 0 <= i < |gs| :: gs[i].key
  }

  /** The sums recorded for `k`: those of its first group, or zero when there is none. */
  function Lookup(gs: seq<Group>, k: Key): Sums {
    if |gs| == 0 then Zero else if gs[0].key == k then gs[0].sums else Lookup(gs[1..], k)
  }

  lemma {:induction false} LookupAbsent(gs: seq<Group>, k: Key)
    requires k !in KeySet(gs)
    ensures Lookup(gs, k) == Zero
  {
    if |gs| > 0 {
      assert gs[0].key in KeySet(gs);
      assert KeySet(gs[1..]) <= KeySet(gs) by {
        forall q | q in KeySet(gs[1..]) ensures q in KeySet(gs) {
          var i :| 0 <= i < |gs[1..]| && gs[1..][i].key == q;
          assert gs[i + 1].key == q;
        }
      }
      LookupAbsent(gs[1..], k);
    }
  }

  /** In a sorted list each group is the one `Lookup` finds for its key. */
  lemma {:induction false} LookupSorted(gs: seq<Group>, i: nat)
    requires Sorted(gs) && i < |gs|
    ensures Lookup(gs, gs[i].key) == gs[i].sums
  {
    if i > 0 {
      if gs[0].key == gs[i].key {
        KeyLessIrreflexive(gs[0].key);
        assert false;
      }
      LookupSorted(gs[1..], i - 1);
    }
  }

  lemma KeySetCons(g: Group, gs: seq<Group>)
    ensures KeySet([g] + gs) == {g.key} + KeySet(gs)
  {
    var all := [g] + gs;
    forall q | q in KeySet(all) ensures q in {g.key} + KeySet(gs) {
      var i :| 0 <= i < |all| && all[i].key == q;
      if i > 0 {
        assert gs[i - 1].key == q;
      }
    }
    forall q | q in KeySet(gs) ensures q in KeySet(all) {
      var i :| 0 <= i < |gs| && gs[i].key == q;
      assert all[i + 1].key == q;
    }
    assert all[0].key == g.key;
  }

  /** `r` is `gs` with amounts `a` added under key `k`: still sorted, with `k` among its keys, one
      group longer exactly when `k` is new, and the sums of `k` alone grown by `a`. */
  ghost predicate Inserted(gs: seq<Group>, k: Key, a: Sums, r: seq<Group>) {
    && Sorted(r)
    && KeySet(r) == KeySet(gs) + {k}
    && |r| == |gs| + (if k in KeySet(gs) then 0 else 1)
    && forall q :: Lookup(r, q) == if q == k then Lookup(gs, q).Plus(a) else Lookup(gs, q)
  }

  /** Adds one row's amounts under its key, keeping the list sorted: merged into the key's group
      when it exists, otherwise a new group at the key's place in the order. */
  function Insert(gs: seq<Group>, k: Key, a: Sums): (r: seq<Group>)
    requires Sorted(gs)
    ensures Sorted(r)
    ensures KeySet(r) == KeySet(gs) + {k}
    ensures |r| == |gs| + (if k in KeySet(gs) then 0 else 1)
    ensures forall q :: Lookup(r, q) == if q == k then Lookup(gs, q).Plus(a) else Lookup(gs, q)
  {
    if |gs| == 0 || KeyLess(k, gs[0].key) then
      InsertFront(gs, k, a);
      [Group(k, a)] + gs
    else if gs[0].key == k then
      InsertMerge(gs, k, a);
      [Group(k, gs[0].sums.Plus(a))] + gs[1..]
    else
      KeyLessTotal(k, gs[0].key);
      assert Sorted(gs[1..]);
      var rest := Insert(gs[1..], k, a);
      InsertBehind(gs, k, a, rest);
      [gs[0]] + rest
  }

  /** A key below every key of the list starts a new group in front. */
  lemma InsertFront(gs: seq<Group>, k: Key, a: Sums)
    requires Sorted(gs) && (|gs| == 0 || KeyLess(k, gs[0].key))
    ensures Inserted(gs, k, a, [Group(k, a)] + gs)
  {
    var r := [Group(k, a)] + gs;
    assert Sorted(r) by {
      forall j | 0 < j < |r| ensures KeyLess(k, r[j].key) {
        if j > 1 {
          KeyLessTransitive(k, gs[0].key, gs[j - 1].key);
        }
      }
    }
    assert k !in KeySet(gs) by {
      if k in KeySet(gs) {
        var j :| 0 <= j < |gs| && gs[j].key == k;
        if j > 0 {
          KeyLessTransitive(k, gs[0].key, gs[j].key);
        }
        KeyLessIrreflexive(k);
      }
    }
    LookupAbsent(gs, k);
    KeySetCons(Group(k, a), gs);
    assert r[1..] == gs;
  }

  /** The key of the first group merges into that group. */
  lemma InsertMerge(gs: seq<Group>, k: Key, a: Sums)
    requires Sorted(gs) && |gs| > 0 && gs[0].key == k
    ensures Inserted(gs, k, a, [Group(k, gs[0].sums.Plus(a))] + gs[1..])
  {
    var r := [Group(k, gs[0].sums.Plus(a))] + gs[1..];
    assert gs == [gs[0]] + gs[1..];
    KeySetCons(gs[0], gs[1..]);
    KeySetCons(r[0], gs[1..]);
    assert gs[0].key in KeySet(gs);
    assert r[1..] == gs[1..];
  }

  /** A key above the first group's is inserted into the rest of the list. */
  lemma InsertBehind(gs: seq<Group>, k: Key, a: Sums, rest: seq<Group>)
    requires Sorted(gs) && |gs| > 0 && KeyLess(gs[0].key, k)
    requires Inserted(gs[1..], k, a, rest)
    ensures Inserted(gs, k, a, [gs[0]] + rest)
  {
    var r := [gs[0]] + rest;
    assert Sorted(r) by {
      forall j | 0 < j < |r| ensures KeyLess(gs[0].key, r[j].key) {
        assert r[j].key in KeySet(rest) by { assert rest[j - 1].key == r[j].key; }
        if r[j].key != k {
          assert r[j].key in KeySet(gs[1..]);
          var m :| 0 <= m < |gs[1..]| && gs[1..][m].key == r[j].key;
          assert gs[m + 1].key == r[j].key;
        }
      }
    }
    assert gs == [gs[0]] + gs[1..];
    KeySetCons(gs[0], gs[1..]);
    KeySetCons(gs[0], rest);
    KeyLessIrreflexive(k);
    assert k in KeySet(gs) <==> k in KeySet(gs[1..]);
    assert r[1..] == rest;
  }

  /** The distinct grouping keys of the rows. */
  function KeysOf(rows: seq<Record>): set<Key> {
    set i | 0 <= i < |rows| :: KeyOf(rows[i])
  }

  /** Reference definition: the amounts of all rows with key `k`, summed in row order. */
  function SumFor(rows: seq<Record>, k: Key): Sums {
    if |rows| == 0 then Zero
    else
      var n := |rows| - 1;
      if KeyOf(rows[n]) == k then SumFor(rows[..n], k).Plus(AmountsOf(rows[n])) else SumFor(rows[..n], k)
  }

  lemma KeysOfSnoc(rows: seq<Record>)
    requires |rows| > 0
    ensures KeysOf(rows) == KeysOf(rows[..|rows| - 1]) + {KeyOf(rows[|rows| - 1])}
  {
    var n := |rows| - 1;
    forall q | q in KeysOf(rows) ensures q in KeysOf(rows[..n]) + {KeyOf(rows[n])} {
      var i :| 0 <= i < |rows| && KeyOf(rows[i]) == q;
      if i < n {
        assert KeyOf(rows[..n][i]) == q;
      }
    }
    forall q | q in KeysOf(rows[..n]) ensures q in KeysOf(rows) {
      var i :| 0 <= i < n && KeyOf(rows[..n][i]) == q;
      assert KeyOf(rows[i]) == q;
    }
  }

  /** `groupby(keys)[amounts].sum()`: one group per distinct key, in key order, each carrying the
      sum of its rows' amounts. */
  function GroupSum(rows: seq<Record>): (gs: seq<Group>)
    ensures Sorted(gs)
    ensures KeySet(gs) == KeysOf(rows)
    ensures |gs| == |KeysOf(rows)|
    ensures forall k :: Lookup(gs, k) == SumFor(rows, k)
  {
    if |rows| == 0 then []
    else
      var n := |rows| - 1;
      var prefix := GroupSum(rows[..n]);
      var k := KeyOf(rows[n]);
      KeysOfSnoc(rows);
      var r := Insert(prefix, k, AmountsOf(rows[n]));
      assert |r| == |KeysOf(rows)| by {
        var before := KeysOf(rows[..n]);
        if k in before {
          assert before + {k} == before;
        } else {
          assert |before + {k}| == |before| + 1;
        }
      }
      assert forall q :: Lookup(r, q) == SumFor(rows, q) by {
        forall q ensures Lookup(r, q) == SumFor(rows, q) {
          assert Lookup(prefix, q) == SumFor(rows[..n], q);
        }
      }
      r
  }

  /** Each group's sums are the sums over exactly the rows with its key. */
  lemma GroupSums(rows: seq<Record>)
    ensures var gs := GroupSum(rows);
      forall i :: 0 <= i < |gs| ==> gs[i].sums == SumFor(rows, gs[i].key)
  {
    var gs := GroupSum(rows);
    forall i | 0 <= i < |gs| ensures gs[i].sums == SumFor(rows, gs[i].key) {
      LookupSorted(gs, i);
    }
  }

  lemma {:induction false} KeysOfBound(rows: seq<Record>)
    ensures |KeysOf(rows)| <= |rows|
  {
    if |rows| > 0 {
      KeysOfSnoc(rows);
      KeysOfBound(rows[..|rows| - 1]);
    }
  }

  // ---------------------------------------------------------------------------------------------
  // The derived columns

  /** `conversion rate`: 1 when both currency totals are 0, otherwise functional over transaction;
      `None` stands for the infinite quotient of a nonzero amount over a zero one. */
  function Rate(s: Sums): (r: Option<real>)
    ensures s.functional == 0.0 && s.transaction == 0.0 ==> r == Some(1.0)
    ensures s.transaction != 0.0 ==> r.Some? && r.value * s.transaction == s.functional
    ensures r.None? <==> s.transaction == 0.0 && s.functional != 0.0
  {
    if s.functional == 0.0 && s.transaction == 0.0 then Some(1.0)
    else if s.transaction == 0.0 then None
    else Some(s.functional / s.transaction)
  }

  /** An amount times a rate; a non-finite rate gives a non-finite product. */
  function Scale(rate: Option<real>, x: real): (r: Option<real>)
    ensures r.Some? <==> rate.Some?
    ensures r.Some? ==> r.value == x * rate.value
  {
    match rate
    case None => None
    case Some(v) => Some(x * v)
  }

  /** The two PO numbers whose `diff InSAR` the report forces to 0. */
  const ExemptPoNumbers: set<string> := {"SA-AFR-PO-170664", "SA-AFR-PO-178578"}

  predicate Exempt(po: Cell) {
    po.Text? && po.s in ExemptPoNumbers
  }

  /** An invoice line: the (PO, invoice, invoice line) part of a key. */
  datatype InvoiceLine = InvoiceLine(po: Cell, invoice: Cell, line: Cell)

  function LineOf(k: Key): InvoiceLine {
    InvoiceLine(k.po, k.invoice, k.invoiceLine)
  }

  function Lines(gs: seq<Group>): (ls: seq<InvoiceLine>)
    ensures |ls| == |gs| && forall i :: 0 <= i < |gs| ==> ls[i] == LineOf(gs[i].key)
  {
    seq(|gs|, i requires 0 <= i < |gs| => LineOf(gs[i].key))
  }

  /** One row of the aggregated report. `key` and `sums` are its group's; `lineAmount` and
      `lineFunctional` are the columns of those names as the report shows them (zeroed on a
      repeated invoice line). */
  datatype AggRow = AggRow(
    key: Key, sums: Sums,
    lineAmount: real, lineFunctional: Cell,
    rate: Option<real>, diff: real, diffLocal: Option<real>)

  /** The derived columns of one group; `repeated` is the `dup_index > 0` mask. */
  function Summarize(g: Group, repeated: bool): (r: AggRow)
    ensures r.key == g.key && r.sums == g.sums
    ensures repeated ==> r.lineAmount == 0.0 && r.lineFunctional == Num(0.0)
    ensures !repeated ==> r.lineAmount == g.key.lineAmount && r.lineFunctional == g.key.lineFunctional
    ensures r.diff + g.sums.received == r.lineAmount
    ensures r.rate == Rate(g.sums)
    ensures Exempt(g.key.po) ==> r.diffLocal == Some(0.0)
    ensures !Exempt(g.key.po) ==> r.diffLocal == Scale(r.rate, r.diff)
  {
    var line := if repeated then 0.0 else g.key.lineAmount;
    var lineFunctional := if repeated then Num(0.0) else g.key.lineFunctional;
    var rate := Rate(g.sums);
    var diff := line - g.sums.received;
    AggRow(g.key, g.sums, line, lineFunctional, rate, diff,
           if Exempt(g.key.po) then Some(0.0) else Scale(rate, diff))
  }

  /** Whether the `Po Number` column holds both numbers and text, which `sort_values` cannot
      compare. A blank PO number filled with 0 among text ones is such a column. */
  predicate MixedPo(gs: seq<Group>) {
    (exists i :: 0 <= i < |gs| && gs[i].key.po.Num?) && (exists j :: 0 <= j < |gs| && gs[j].key.po.Text?)
  }

  /** The derived columns of every group, with the mask computed by `cumcount` over the
      invoice lines in output order. */
  function SummarizeAll(gs: seq<Group>): (out: seq<AggRow>)
    ensures |out| == |gs|
    ensures forall i :: 0 <= i < |gs| ==> out[i] == Summarize(gs[i], Earlier(Lines(gs), i) > 0)
  {
    var dup := CumCount(Lines(gs));
    seq(|gs|, i requires 0 <= i < |gs| => Summarize(gs[i], dup[i] > 0))
  }

  /** `_create_processed_report` on the records of the combined frame. */
  function Aggregate(rows: seq<Record>): (r: Result<seq<AggRow>, ReportError>)
    ensures r.Err? <==> MixedPo(GroupSum(rows))
    ensures r.Ok? ==> |r.value| == |KeysOf(rows)| <= |rows|
    ensures r.Ok? ==> forall i :: 0 <= i < |r.value| ==> r.value[i].sums == SumFor(rows, r.value[i].key)
    ensures r.Ok? ==> forall i, j :: 0 <= i < j < |r.value| ==> KeyLess(r.value[i].key, r.value[j].key)
  {
    var gs := GroupSum(rows);
    KeysOfBound(rows);
    GroupSums(rows);
    if MixedPo(gs) then Err(MixedPoNumbers) else Ok(SummarizeAll(gs))
  }

  // ---------------------------------------------------------------------------------------------
  // What the report promises

  /** The successful report is the summary of the groups, in group order. */
  lemma AggregateRows(rows: seq<Record>)
    requires Aggregate(rows).Ok?
    ensures Aggregate(rows).value == SummarizeAll(GroupSum(rows))
  {
  }

  /** The summary has one row per group, with the group's key, so sorted groups give distinct keys. */
  lemma SummaryKeys(gs: seq<Group>)
    requires Sorted(gs)
    ensures var out := SummarizeAll(gs);
      && (set i | 0 <= i < |out| :: out[i].key) == KeySet(gs)
      && forall i, j :: 0 <= i < j < |out| ==> out[i].key != out[j].key
  {
    var out := SummarizeAll(gs);
    forall i | 0 <= i < |out| ensures out[i].key == gs[i].key {
      assert out[i] == Summarize(gs[i], Earlier(Lines(gs), i) > 0);
    }
    var shown := set i | 0 <= i < |out| :: out[i].key;
    forall k | k in KeySet(gs) ensures k in shown {
      var i :| 0 <= i < |gs| && gs[i].key == k;
      assert out[i].key == k;
    }
    forall i, j | 0 <= i < j < |out| ensures out[i].key != out[j].key {
      KeyLessIrreflexive(out[i].key);
    }
  }

  /** Row `i` of the summary zeroes its line amounts exactly when an earlier row has the same
      invoice line. */
  lemma SummaryLine(gs: seq<Group>, i: nat)
    requires i < |gs|
    ensures var out := SummarizeAll(gs);
      if exists j :: 0 <= j < i && LineOf(out[j].key) == LineOf(out[i].key)
      then out[i].lineAmount == 0.0 && out[i].lineFunctional == Num(0.0)
      else out[i].lineAmount == out[i].key.lineAmount && out[i].lineFunctional == out[i].key.lineFunctional
  {
    var out := SummarizeAll(gs);
    var lines := Lines(gs);
    FirstOfGroup(lines, i);
    assert out[i] == Summarize(gs[i], Earlier(lines, i) > 0);
    forall j | 0 <= j <= i ensures LineOf(out[j].key) == lines[j] {
      assert out[j] == Summarize(gs[j], Earlier(lines, j) > 0);
    }
  }

  /** The rate of a sum is the quotient of its totals whenever the transaction total is not 0. */
  lemma RateQuotient(s: Sums)
    requires s.transaction != 0.0
    ensures Rate(s) == Some(s.functional / s.transaction)
  {
    var q := Rate(s).value;
    assert q * s.transaction == s.functional;
  }

  /** The derived amounts of one summary row. */
  predicate AmountsHold(r: AggRow) {
    && r.diff == r.lineAmount - r.sums.received
    && (r.sums.functional == 0.0 && r.sums.transaction == 0.0 ==> r.rate == Some(1.0))
    && (r.sums.transaction != 0.0 ==> r.rate == Some(r.sums.functional / r.sums.transaction))
    && (r.sums.transaction == 0.0 && r.sums.functional != 0.0 ==> r.rate == None)
    && (Exempt(r.key.po) ==> r.diffLocal == Some(0.0))
    && (!Exempt(r.key.po) && r.rate.Some? ==> r.diffLocal == Some(r.diff * r.rate.value))
    && (!Exempt(r.key.po) && r.rate.None? ==> r.diffLocal == None)
  }

  lemma SummarizeAmounts(g: Group, repeated: bool)
    ensures AmountsHold(Summarize(g, repeated))
  {
    var r := Summarize(g, repeated);
    if g.sums.transaction != 0.0 {
      RateQuotient(g.sums);
    }
    if !Exempt(g.key.po) && r.rate.Some? {
      var d := Scale(r.rate, r.diff);
      assert r.diffLocal == d;
      assert d.value == r.diff * r.rate.value;
      assert d == Some(d.value);
    }
    assert AmountsHold(r);
  }

  /** Exactly one output row per distinct grouping key of the filled input. */
  lemma AggregateOneRowPerKey(rows: seq<Record>)
    requires Aggregate(rows).Ok?
    ensures var out := Aggregate(rows).value;
      && (set i | 0 <= i < |out| :: out[i].key) == KeysOf(rows)
      && forall i, j :: 0 <= i < j < |out| ==> out[i].key != out[j].key
  {
    AggregateRows(rows);
    SummaryKeys(GroupSum(rows));
  }

  /** The report is ordered by `Po Number`: never a smaller PO number after a larger one. */
  lemma AggregatePoOrder(rows: seq<Record>)
    requires Aggregate(rows).Ok?
    ensures var out := Aggregate(rows).value;
      forall i, j :: 0 <= i < j < |out| ==> out[i].key.po == out[j].key.po || CellLess(out[i].key.po, out[j].key.po)
  {
    var out := Aggregate(rows).value;
    forall i, j | 0 <= i < j < |out|
      ensures out[i].key.po == out[j].key.po || CellLess(out[i].key.po, out[j].key.po)
    {
      KeyLessPo(out[i].key, out[j].key);
    }
  }

  /** Only the first row of each invoice line, in output order, keeps its line amounts; every
      later row of the same (PO, invoice, invoice line) shows zero in both. */
  lemma AggregateZeroesRepeatedLines(rows: seq<Record>)
    requires Aggregate(rows).Ok?
    ensures var out := Aggregate(rows).value;
      forall i :: 0 <= i < |out| ==>
        if exists j :: 0 <= j < i && LineOf(out[j].key) == LineOf(out[i].key)
        then out[i].lineAmount == 0.0 && out[i].lineFunctional == Num(0.0)
        else out[i].lineAmount == out[i].key.lineAmount && out[i].lineFunctional == out[i].key.lineFunctional
  {
    AggregateRows(rows);
    var gs := GroupSum(rows);
    forall i | 0 <= i < |gs| {
      SummaryLine(gs, i);
    }
  }

  /** The conversion rate and the two differences of every report row: the rate is 1 when both
      currency totals are 0, the quotient when the transaction total is not 0, and missing
      otherwise; `diff` is the shown line amount minus the amount received; `diff InSAR` is 0
      for the two exempt PO numbers and `diff` times the rate for every other. */
  lemma AggregateAmounts(rows: seq<Record>)
    requires Aggregate(rows).Ok?
    ensures var out := Aggregate(rows).value;
      forall i :: 0 <= i < |out| ==> AmountsHold(out[i])
  {
    AggregateRows(rows);
    var gs := GroupSum(rows);
    var out := SummarizeAll(gs);
    forall i | 0 <= i < |gs| ensures AmountsHold(out[i]) {
      SummarizeAmounts(gs[i], Earlier(Lines(gs), i) > 0);
    }
  }
}

=== FILE: combiner.dfy ===
/** The sheet combiner: one table out of a multi-sheet workbook, under the first sheet's header. */
module Combiner {
  import opened Wrappers
  import opened Text
  import opened Tables

  /** One worksheet as the spreadsheet reader delivers it: its name and its grid of rows, which
      may be ragged (pandas fills short rows with blanks). */
  datatype Sheet = Sheet(name: string, grid: seq<Row>)

  /** `df.shape[1]` of a sheet read without a header row. */
  function Columns(s: Sheet): nat {
    Width(s.grid)
  }

  /** The label a header cell gives its column after `str.strip()`. */
  function Label(c: Cell): (l: string)
    ensures c.Text? ==> l == Trim(c.s)
    ensures !c.Text? ==> l == ""
  {
    match c
    case Text(x) => Trim(x)
    case _ => ""
  }

  function Labels(header: Row): (r: seq<string>)
    ensures |r| == |header|
    ensures forall i :: 0 <= i < |r| ==> r[i] == Label(header[i])
  {
    seq(|header|, i requires 0 <= i < |header| => Label(header[i]))
  }

  /** `read_excel(header=0)` then `columns.str.strip()`: the first row supplies the (trimmed)
      labels and the remaining rows, padded to the sheet's width, are the data. */
  function ReadWithHeader(s: Sheet): (t: Table)
    ensures WellFormed(t)
    ensures |s.grid| == 0 ==> t == Table([], [])
    ensures |s.grid| > 0 ==> |t.columns| == Columns(s) && |t.rows| == |s.grid| - 1
    ensures |s.grid| > 0 ==> forall i :: 0 <= i < |s.grid[0]| ==> t.columns[i] == Label(s.grid[0][i])
    ensures |s.grid| > 0 ==> forall i :: |s.grid[0]| <= i < |t.columns| ==> t.columns[i] == ""
    ensures forall i :: 0 <= i < |t.rows| ==> t.rows[i][..|s.grid[i + 1]|] == s.grid[i + 1]
    ensures forall i, j :: 0 <= i < |t.rows| && |s.grid[i + 1]| <= j < |t.columns| ==> t.rows[i][j] == Blank
  {
    if |s.grid| == 0 then Table([], [])
    else
      var w := Width(s.grid);
      var header := PadRow(s.grid[0], w);
      var labels := Labels(header);
      var rows := PadRows(s.grid[1..], w);
      assert forall i :: 0 <= i < |s.grid[0]| ==> labels[i] == Label(s.grid[0][i]) by {
        forall i | 0 <= i < |s.grid[0]|
          ensures labels[i] == Label(s.grid[0][i])
        {
          assert header[..|s.grid[0]|][i] == header[i];
        }
      }
      assert forall i :: |s.grid[0]| <= i < |labels| ==> labels[i] == "" by {
        forall i | |s.grid[0]| <= i < |labels|
          ensures labels[i] == ""
        {
          assert header[i] == Blank;
        }
      }
      assert forall i :: 0 <= i < |rows| ==> rows[i][..|s.grid[i + 1]|] == s.grid[i + 1] by {
        forall i | 0 <= i < |rows|
          ensures rows[i][..|s.grid[i + 1]|] == s.grid[i + 1]
        {
          assert s.grid[1..][i] == s.grid[i + 1];
        }
      }
      assert forall i, j :: 0 <= i < |rows| && |s.grid[i + 1]| <= j < w ==> rows[i][j] == Blank by {
        forall i, j | 0 <= i < |rows| && |s.grid[i + 1]| <= j < w
          ensures rows[i][j] == Blank
        {
          assert s.grid[1..][i] == s.grid[i + 1];
        }
      }
      Table(labels, rows)
  }

  /** Every label of the first sheet is already stripped. */
  lemma LabelsTrimmed(s: Sheet)
    ensures var t := ReadWithHeader(s);
      forall i :: 0 <= i < |t.columns| ==> Trim(t.columns[i]) == t.columns[i]
  {
    var t := ReadWithHeader(s);
    forall i | 0 <= i < |t.columns|
      ensures Trim(t.columns[i]) == t.columns[i]
    {
      if i >= |s.grid[0]| || !s.grid[0][i].Text? {
        TrimUnchanged("");
      } else {
        TrimIdempotent(s.grid[0][i].s);
      }
    }
  }

  /** `read_excel(header=None)`: every row is data, padded to the sheet's width. */
  function SheetRows(s: Sheet): (rows: seq<Row>)
    ensures |rows| == |s.grid|
    ensures forall i :: 0 <= i < |rows| ==> |rows[i]| == Columns(s) && rows[i][..|s.grid[i]|] == s.grid[i]
    ensures forall i, j :: 0 <= i < |rows| && |s.grid[i]| <= j < Columns(s) ==> rows[i][j] == Blank
  {
    PadRows(s.grid, Columns(s))
  }

  /** A later sheet left out because its column count differs from the first sheet's. */
  datatype Skip = Skip(sheet: string, expected: nat, actual: nat)

  datatype Appended = Appended(rows: seq<Row>, skips: seq<Skip>)

  /** The loop over the later sheets, in sheet order: a sheet of the expected width has its rows
      appended; any other is skipped and the skip recorded. */
  function AppendSheets(sheets: seq<Sheet>, width: nat): (a: Appended)
    ensures forall i :: 0 <= i < |a.rows| ==> |a.rows[i]| == width
    ensures forall k :: 0 <= k < |a.skips| ==> a.skips[k].expected == width && a.skips[k].actual != width
  {
    if |sheets| == 0 then Appended([], [])
    else
      var a := AppendSheets(sheets[..|sheets| - 1], width);
      var s := sheets[|sheets| - 1];
      if Columns(s) != width then Appended(a.rows, a.skips + [Skip(s.name, width, Columns(s))])
      else Appended(a.rows + SheetRows(s), a.skips)
  }

  /** One more sheet appends its rows when its width matches and nothing otherwise. */
  lemma AppendSheetsSnoc(sheets: seq<Sheet>, s: Sheet, width: nat)
    ensures AppendSheets(sheets + [s], width).rows
         == AppendSheets(sheets, width).rows + (if Columns(s) == width then SheetRows(s) else [])
  {
    assert (sheets + [s])[..|sheets|] == sheets;
  }

  /** The combined frame and the sheets skipped on the way. */
  datatype Combined = Combined(table: Table, skips: seq<Skip>)

  /** `_combine_excel_sheets`: the first sheet fixes the schema; later sheets of the same width
      follow it in sheet order; the others are skipped, which is not an error. */
  function Combine(sheets: seq<Sheet>): (r: Result<Combined, ReportError>)
    ensures r.Err? <==> |sheets| == 0
    ensures r.Ok? ==> WellFormed(r.value.table)
    ensures r.Ok? ==> r.value.table.columns == ReadWithHeader(sheets[0]).columns
    ensures r.Ok? ==> ReadWithHeader(sheets[0]).rows <= r.value.table.rows
  {
    if |sheets| == 0 then Err(NoSheets)
    else
      var first := ReadWithHeader(sheets[0]);
      var later := AppendSheets(sheets[1..], |first.columns|);
      assert (first.rows + later.rows)[..|first.rows|] == first.rows;
      Ok(Combined(Table(first.columns, first.rows + later.rows), later.skips))
  }

  // An independent description of the same result: filter the later sheets, then concatenate.

  /** The later sheets whose width matches, in order. */
  function Retained(sheets: seq<Sheet>, width: nat): (r: seq<Sheet>)
    ensures forall i :: 0 <= i < |r| ==> Columns(r[i]) == width && r[i] in sheets
  {
    if |sheets| == 0 then []
    else if Columns(sheets[0]) == width then [sheets[0]] + Retained(sheets[1..], width)
    else Retained(sheets[1..], width)
  }

  /** The later sheets whose width does not match, in order. */
  function Mismatched(sheets: seq<Sheet>, width: nat): (r: seq<Sheet>)
    ensures forall i :: 0 <= i < |r| ==> Columns(r[i]) != width && r[i] in sheets
  {
    if |sheets| == 0 then []
    else if Columns(sheets[0]) != width then [sheets[0]] + Mismatched(sheets[1..], width)
    else Mismatched(sheets[1..], width)
  }

  /** All rows of the given sheets, sheet after sheet. */
  function Concat(sheets: seq<Sheet>): seq<Row> {
    if |sheets| == 0 then [] else SheetRows(sheets[0]) + Concat(sheets[1..])
  }

  /** The number of rows in the given sheets. */
  function Height(sheets: seq<Sheet>): nat {
    if |sheets| == 0 then 0 else |sheets[0].grid| + Height(sheets[1..])
  }

  lemma {:induction false} RetainedSnoc(sheets: seq<Sheet>, s: Sheet, width: nat)
    ensures Retained(sheets + [s], width) == Retained(sheets, width) + (if Columns(s) == width then [s] else [])
    ensures Mismatched(sheets + [s], width) == Mismatched(sheets, width) + (if Columns(s) != width then [s] else [])
  {
    if |sheets| > 0 {
      assert (sheets + [s])[1..] == sheets[1..] + [s];
      RetainedSnoc(sheets[1..], s, width);
    } else {
      assert ([s])[1..] == [];
    }
  }

  lemma {:induction false} ConcatAppend(a: seq<Sheet>, b: seq<Sheet>)
    ensures Concat(a + b) == Concat(a) + Concat(b)
    ensures Height(a + b) == Height(a) + Height(b)
  {
    if |a| > 0 {
      assert (a + b)[1..] == a[1..] + b;
      ConcatAppend(a[1..], b);
    } else {
      assert a + b == b;
    }
  }

  lemma {:induction false} ConcatLength(sheets: seq<Sheet>)
    ensures |Concat(sheets)| == Height(sheets)
  {
    if |sheets| > 0 {
      ConcatLength(sheets[1..]);
    }
  }

  /** The loop over later sheets appends exactly the rows of the matching sheets, in sheet order,
      and records a skip for exactly the others, in sheet order, with their actual widths. */
  lemma {:induction false} AppendIsFilterThenConcat(sheets: seq<Sheet>, width: nat)
    ensures AppendSheets(sheets, width).rows == Concat(Retained(sheets, width))
    ensures |AppendSheets(sheets, width).rows| == Height(Retained(sheets, width))
    ensures var m := Mismatched(sheets, width);
      var k := AppendSheets(sheets, width).skips;
      |k| == |m| && forall i :: 0 <= i < |k| ==> k[i] == Skip(m[i].name, width, Columns(m[i]))
  {
    if |sheets| == 0 {
    } else {
      var init := sheets[..|sheets| - 1];
      var s := sheets[|sheets| - 1];
      assert sheets == init + [s];
      AppendIsFilterThenConcat(init, width);
      RetainedSnoc(init, s, width);
      ConcatAppend(Retained(init, width), if Columns(s) == width then [s] else []);
      if Columns(s) == width {
        assert Concat([s]) == SheetRows(s) by {
          assert [s][1..] == [];
        }
      }
    }
    ConcatLength(Retained(sheets, width));
  }

  /** The combined frame is the first sheet's data followed by every later sheet whose width
      matches the first sheet's, in sheet order, under the first sheet's trimmed labels; its row
      count is the sum of theirs; the skipped sheets are exactly the others. */
  lemma CombineSpec(sheets: seq<Sheet>)
    requires |sheets| > 0
    ensures var first := ReadWithHeader(sheets[0]);
      var later := sheets[1..];
      var c := Combine(sheets).value;
      && c.table == Table(first.columns, first.rows + Concat(Retained(later, |first.columns|)))
      && |c.table.rows| == |first.rows| + Height(Retained(later, |first.columns|))
      && |c.skips| == |Mismatched(later, |first.columns|)|
      && forall i :: 0 <= i < |c.skips| ==>
           c.skips[i] == Skip(Mismatched(later, |first.columns|)[i].name, |first.columns|,
                              Columns(Mismatched(later, |first.columns|)[i]))
  {
    AppendIsFilterThenConcat(sheets[1..], |ReadWithHeader(sheets[0]).columns|);
  }
}

=== FILE: detail.dfy ===
/** The detailed ("ProcessedDetailed") report: every combined row, in order, with a duplicate
    index, the line amounts adjusted for duplicates, and per-row conversions into the functional
    currency (SAR). */
module Detail {
  import opened Wrappers
  import opened Tables
  import opened Records
  import opened Grouping

  /** The four columns whose combination marks a repeated invoice line in the detailed report.
      The line amount is compared as it stands: a blank amount is its own value. */
  datatype DetailKey = DetailKey(po: Cell, invoice: Cell, invoiceLine: Cell, lineAmount: Option<real>)

  function DetailKeyOf(x: Record): DetailKey {
    DetailKey(x.po, x.invoice, x.invoiceLine, x.lineAmount)
  }

  function DetailKeys(rows: seq<Record>): (ks: seq<DetailKey>)
    ensures |ks| == |rows| && forall i :: 0 <= i < |rows| ==> ks[i] == DetailKeyOf(rows[i])
  {
    seq(|rows|, i requires 0 <= i < |rows| => DetailKeyOf(rows[i]))
  }

  /** Division of two columns that may be blank. A blank operand, or a zero divisor (pandas gives
      an infinity or NaN there), gives a blank result. */
  function Quotient(num: Option<real>, den: Option<real>): (r: Option<real>)
    ensures r.Some? <==> num.Some? && den.Some? && den.value != 0.0
    ensures r.Some? ==> r.value * den.value == num.value
  {
    if num.Some? && den.Some? && den.value != 0.0 then Some(num.value / den.value) else None
  }

  /** Multiplication of two columns that may be blank: blank if either is. */
  function Times(a: Option<real>, b: Option<real>): (r: Option<real>)
    ensures r.Some? <==> a.Some? && b.Some?
    ensures r.Some? ==> r.value == a.value * b.value
  {
    if a.Some? && b.Some? then Some(a.value * b.value) else None
  }

  /** One row of the detailed report: the combined row it came from and the six columns the report
      appends to it. */
  datatype DetailRow = DetailRow(
    record: Record, dup: nat,
    lineAdj: Option<real>, functionalAdj: Cell,
    rate: Option<real>, receivedLocal: Option<real>, grn: Option<real>)

  /** The appended columns of one row, given its `Dup_ind`. */
  function Detail(x: Record, dup: nat): (d: DetailRow)
    ensures d.record == x && d.dup == dup
    ensures dup > 1 ==> d.lineAdj == Some(0.0) && d.functionalAdj == Num(0.0)
    ensures dup <= 1 ==> d.lineAdj == x.lineAmount && d.functionalAdj == x.lineFunctional
    ensures d.rate.Some? <==> x.functional.Some? && x.transaction.Some? && x.transaction.value != 0.0
    ensures d.rate.Some? ==> d.rate.value * x.transaction.value == x.functional.value
    ensures d.receivedLocal.Some? <==> x.received.Some? && d.rate.Some?
    ensures d.receivedLocal.Some? ==> d.receivedLocal.value == x.received.value * d.rate.value
    ensures d.grn.Some? <==> d.rate.Some?
    ensures d.grn.Some? ==> d.grn.value == (x.received.GetOr(0.0) - d.lineAdj.GetOr(0.0)) * d.rate.value
  {
    var lineAdj := if dup > 1 then Some(0.0) else x.lineAmount;
    var functionalAdj := if dup > 1 then Num(0.0) else x.lineFunctional;
    var rate := Quotient(x.functional, x.transaction);
    DetailRow(x, dup, lineAdj, functionalAdj, rate,
              Times(x.received, rate),
              Times(Some(x.received.GetOr(0.0) - lineAdj.GetOr(0.0)), rate))
  }

  /** `_create_ProcessedDetailed_report` on the records of the combined frame: `Dup_ind` is
      `cumcount() + 1` over the detail keys. */
  function Detailed(rows: seq<Record>): (out: seq<DetailRow>)
    ensures |out| == |rows|
    ensures forall i :: 0 <= i < |rows| ==> out[i].record == rows[i]
    ensures forall i :: 0 <= i < |rows| ==> out[i] == Detail(rows[i], Earlier(DetailKeys(rows), i) + 1)
  {
    DetailedByCount(rows);
    DetailAll(rows, CumCount(DetailKeys(rows)))
  }

  lemma DetailedByCount(rows: seq<Record>)
    ensures var keys := DetailKeys(rows); var out := DetailAll(rows, CumCount(keys));
      forall i :: 0 <= i < |rows| ==> out[i] == Detail(rows[i], Earlier(keys, i) + 1)
  {
    forall i | 0 <= i < |rows| {
      DetailedAt(rows, i);
    }
  }

  lemma DetailedAt(rows: seq<Record>, i: nat)
    requires i < |rows|
    ensures var keys := DetailKeys(rows);
      DetailAll(rows, CumCount(keys))[i] == Detail(rows[i], Earlier(keys, i) + 1)
  {
    var counts := CumCount(DetailKeys(rows));
    assert counts[i] == Earlier(DetailKeys(rows), i);
  }

  /** Every row's appended columns, given each row's `cumcount()`. */
  function DetailAll(rows: seq<Record>, counts: seq<nat>): (out: seq<DetailRow>)
    requires |counts| == |rows|
    ensures |out| == |rows|
    ensures forall i :: 0 <= i < |rows| ==> out[i].record == rows[i]
    ensures forall i :: 0 <= i < |rows| ==> out[i] == Detail(rows[i], counts[i] + 1)
  {
    seq(|rows|, i requires 0 <= i < |rows| => Detail(rows[i], counts[i] + 1))
  }

  // ---------------------------------------------------------------------------------------------
  // What the report promises

  /** The report keeps every input row, in input order, and `Dup_ind` is 1 plus the number of
      earlier rows with the same PO number, invoice number, invoice line and line amount. */
  lemma DetailedRows(rows: seq<Record>)
    ensures var out := Detailed(rows);
      && |out| == |rows|
      && forall i :: 0 <= i < |rows| ==>
           out[i].record == rows[i]
           && out[i].dup == 1 + |set j | 0 <= j < i && DetailKeyOf(rows[j]) == DetailKeyOf(rows[i])|
  {
    var out := Detailed(rows);
    var keys := DetailKeys(rows);
    forall i | 0 <= i < |rows|
      ensures out[i].record == rows[i]
      ensures out[i].dup == 1 + |set j | 0 <= j < i && DetailKeyOf(rows[j]) == DetailKeyOf(rows[i])|
    {
      EarlierCountsRows(keys, i);
      assert Positions(keys, keys[i], i) == set j | 0 <= j < i && DetailKeyOf(rows[j]) == DetailKeyOf(rows[i]);
    }
  }

  /** `Dup_ind` is 1 exactly on the first row of each detail key, and grows strictly along the
      rows of a key. */
  lemma DetailedDupIndex(rows: seq<Record>, i: nat, j: nat)
    requires i < |rows| && j < |rows|
    ensures var out := Detailed(rows);
      out[i].dup == 1 <==> forall m :: 0 <= m < i ==> DetailKeyOf(rows[m]) != DetailKeyOf(rows[i])
    ensures var out := Detailed(rows);
      i < j && DetailKeyOf(rows[i]) == DetailKeyOf(rows[j]) ==> out[i].dup < out[j].dup
  {
    var keys := DetailKeys(rows);
    FirstOfGroup(keys, i);
    if i < j && keys[i] == keys[j] {
      CountGrows(keys, i, j);
    }
  }

  // ---------------------------------------------------------------------------------------------
  // The report as a frame

  /** The labels the detailed report appends, in order (its "recieved" spelling included). */
  const DetailColumns: seq<string> :=
    ["Dup_ind", "Line_amount_adj", "Invoice_line_amount_in_sar", "conversion_rate",
     "Amount_recieved_in_SAR", "GRN_amount_in_SAR"]

  function DetailCells(d: DetailRow): (r: Row)
    ensures |r| == |DetailColumns|
  {
    [Num(d.dup as real), OptCell(d.lineAdj), d.functionalAdj, OptCell(d.rate),
     OptCell(d.receivedLocal), OptCell(d.grn)]
  }

  /** The value the detailed report appends under the label `name`, field by field; `None` for a
      label it does not append. */
  function DetailField(d: DetailRow, name: string): Option<Cell> {
    if name == "Dup_ind" then Some(Num(d.dup as real))
    else if name == "Line_amount_adj" then Some(OptCell(d.lineAdj))
    else if name == "Invoice_line_amount_in_sar" then Some(d.functionalAdj)
    else if name == "conversion_rate" then Some(OptCell(d.rate))
    else if name == "Amount_recieved_in_SAR" then Some(OptCell(d.receivedLocal))
    else if name == "GRN_amount_in_SAR" then Some(OptCell(d.grn))
    else None
  }

  /** Every appended cell sits under the label of the field it shows. */
  lemma DetailCellsLabelled(d: DetailRow)
    ensures forall j :: 0 <= j < |DetailColumns| ==> DetailField(d, DetailColumns[j]) == Some(DetailCells(d)[j])
  {
  }

  /** The detailed frame: the input frame's columns and cells, then the appended columns. */
  function RenderDetailed(columns: seq<string>, out: seq<DetailRow>): (t: Table)
    requires forall i :: 0 <= i < |out| ==> |out[i].record.cells| == |columns|
    ensures WellFormed(t)
    ensures t.columns == columns + DetailColumns && |t.rows| == |out|
    ensures forall i :: 0 <= i < |out| ==>
      t.rows[i][..|columns|] == out[i].record.cells && t.rows[i][|columns|..] == DetailCells(out[i])
  {
    var rows := seq(|out|, i requires 0 <= i < |out| => out[i].record.cells + DetailCells(out[i]));
    assert forall i :: 0 <= i < |out| ==> rows[i][..|columns|] == out[i].record.cells;
    Table(columns + DetailColumns, rows)
  }
}

=== FILE: fetcher.dfy ===
/** The decisions the report fetcher takes around its remote calls: which job id a schedule reply
    names, when polling stops and why, which instance id a finished job resolves to, which output
    is downloaded, and how a text-encoded document is padded before decoding. The remote calls
    themselves are parameters: their replies are given, not performed. */
module Fetcher {
  import opened Wrappers
  import opened Text

  /** The ways fetching a report can fail. */
  datatype FetchError =
    | JobFailed(status: string)     // the job reached a failure status, as the service spelled it
    | TimedOut                      // polling ran past the timeout
    | StatusQueryFailed(message: string)  // a status query raised; the loop does not catch it
    | BadJobId(jobId: string)       // the fallback cannot read the job id as an integer
    | NoOutput                      // the finished job lists no output
    | NoOutputId                    // the first output carries no (or an empty) id

  // ---------------------------------------------------------------------------------------------
  // The job id of a schedule reply

  /** A reply of `scheduleReport`: a bare string, or an object that may carry `requestId` and
      `jobId` attributes and always has a string form. */
  datatype ScheduleReply =
    | Plain(id: string)
    | Reply(requestId: Option<string>, jobId: Option<string>, shown: string)

  /** The job id a schedule reply names: the string itself, else `requestId`, else `jobId`, else
      the reply's string form. */
  function JobIdOf(reply: ScheduleReply): (id: string)
    ensures reply.Plain? ==> id == reply.id
    ensures reply.Reply? && reply.requestId.Some? ==> id == reply.requestId.value
    ensures reply.Reply? && reply.requestId.None? && reply.jobId.Some? ==> id == reply.jobId.value
    ensures reply.Reply? && reply.requestId.None? && reply.jobId.None? ==> id == reply.shown
  {
    match reply
    case Plain(s) => s
    case Reply(requestId, jobId, shown) =>
      if requestId.Some? then requestId.value
      else if jobId.Some? then jobId.value
      else shown
  }

  // ---------------------------------------------------------------------------------------------
  // Job statuses

  const SuccessStatuses: set<string> := {"SUCCESS", "PROBLEM"}
  const FailureStatuses: set<string> := {"FAILED", "CANCELLED", "CANCELED", "SKIPPED"}

  datatype Verdict = Finished | Failed | Pending

  /** A status as the loop compares it: upper-cased, and "" for a missing one. */
  function Normalize(status: Option<string>): (n: string)
    ensures status.None? ==> n == ""
    ensures status.Some? ==> |n| == |status.value|
  {
    match status
    case None => ""
    case Some(s) => Upper(s)
  }

  /** What one status reply means to the loop: done, failed, or poll again. A missing status and
      every status outside the two lists mean poll again. */
  function Classify(status: Option<string>): (v: Verdict)
    ensures v == Finished <==> Normalize(status) in SuccessStatuses
    ensures v == Failed <==> Normalize(status) in FailureStatuses
    ensures v == Failed ==> status.Some?
  {
    var n := Normalize(status);
    if n in SuccessStatuses then Finished
    else if n in FailureStatuses then Failed
    else Pending
  }

  /** Upper-casing is idempotent on the characters it changes and keeps. */
  lemma UpperIdempotent(s: string)
    ensures Upper(Upper(s)) == Upper(s)
  {
  }

  /** The verdict ignores case: a status and its upper-cased spelling mean the same. */
  lemma ClassifyIgnoresCase(s: string)
    ensures Classify(Some(s)) == Classify(Some(Upper(s)))
  {
    UpperIdempotent(s);
  }

  // ---------------------------------------------------------------------------------------------
  // Resolving the instance id of a finished job

  /** The reply of `getAllJobInstanceIDs`: the call raised, the reply had no `item`, `item` was
      a list, or `item` was a single id. */
  datatype InstanceReply = CallFailed | NoItem | ItemList(ids: seq<string>) | ItemSingle(id: string)

  /** An instance id, tagged with how it was found: listed by the service, or guessed as the job
      id plus one. */
  datatype Instance = Listed(id: string) | Guessed(id: string)

  /** `_resolve_instance_id`: the first listed instance; otherwise the decimal spelling of
      `int(job_id) + 1`, which raises when the job id is not an integer. */
  function ResolveInstance(jobId: string, reply: InstanceReply): (r: Result<Instance, FetchError>)
    ensures reply.ItemList? && |reply.ids| > 0 ==> r == Ok(Listed(reply.ids[0]))
    ensures reply.ItemSingle? ==> r == Ok(Listed(reply.id))
    ensures r.Ok? && r.value.Guessed? ==> ParseInt(jobId).Some? && ParseInt(r.value.id) == Some(ParseInt(jobId).value + 1)
    ensures (reply.CallFailed? || reply.NoItem? || reply == ItemList([])) ==> (r.Err? <==> ParseInt(jobId).None?)
    ensures (reply.CallFailed? || reply.NoItem? || reply == ItemList([])) && ParseInt(jobId).Some? ==>
      r == Ok(Guessed(IntToString(ParseInt(jobId).value + 1)))
    ensures r.Err? ==> r == Err(BadJobId(jobId))
  {
    if reply.ItemList? && |reply.ids| > 0 then Ok(Listed(reply.ids[0]))
    else if reply.ItemSingle? then Ok(Listed(reply.id))
    else match ParseInt(jobId)
      case None => Err(BadJobId(jobId))
      case Some(n) =>
        IntRoundTrip(n + 1);
        Ok(Guessed(IntToString(n + 1)))
  }

  // ---------------------------------------------------------------------------------------------
  // Polling

  /** The reply of one status query: a status, possibly missing, or a raised error. */
  datatype StatusReply = Status(status: Option<string>) | QueryError(message: string)

  /** The end of a polling run: the instance id or the error, the number of status queries made,
      and the number of sleeps taken. */
  datatype Polled = Polled(result: Result<Instance, FetchError>, queries: nat, sleeps: nat)

  /** `_wait_for_completion` from its `k`-th check on. The clock is a step counter: the `k`-th
      check happens `k * interval` seconds after the start, and `replies(k)` is the reply of the
      `k`-th status query. */
  function WaitFrom(jobId: string, replies: nat -> StatusReply, instances: InstanceReply,
                    interval: nat, timeout: nat, k: nat): (p: Polled)
    requires interval > 0
    ensures p.queries >= k && p.sleeps >= k
    decreases timeout + interval - k * interval
  {
    if k * interval > timeout then Polled(Err(TimedOut), k, k)
    else match replies(k)
      case QueryError(message) => Polled(Err(StatusQueryFailed(message)), k + 1, k)
      case Status(status) =>
        match Classify(status)
        case Finished => Polled(ResolveInstance(jobId, instances), k + 1, k)
        case Failed => Polled(Err(JobFailed(status.value)), k + 1, k)
        case Pending => WaitFrom(jobId, replies, instances, interval, timeout, k + 1)
  }

  function Wait(jobId: string, replies: nat -> StatusReply, instances: InstanceReply,
                interval: nat, timeout: nat): Polled
    requires interval > 0
  {
    WaitFrom(jobId, replies, instances, interval, timeout, 0)
  }

  /** Whether a status reply ends the loop. */
  predicate Terminal(reply: StatusReply) {
    reply.QueryError? || Classify(reply.status) != Pending
  }

  /** What the `k`-th reply, a terminal one, ends the loop with. */
  function Ending(jobId: string, reply: StatusReply, instances: InstanceReply): Result<Instance, FetchError>
    requires Terminal(reply)
  {
    match reply
    case QueryError(message) => Err(StatusQueryFailed(message))
    case Status(status) =>
      if Classify(status) == Finished then ResolveInstance(jobId, instances) else Err(JobFailed(status.value))
  }

  /** The loop as a whole: every reply before the last query was non-terminal and got exactly one
      sleep; every query happened within the timeout. The loop times out exactly when it has
      slept after its last query, and then the next check is past the timeout; otherwise its
      last reply was terminal and decides the result. */
  lemma {:induction false} WaitFromSpec(jobId: string, replies: nat -> StatusReply, instances: InstanceReply,
                                        interval: nat, timeout: nat, k: nat)
    requires interval > 0
    requires forall j :: 0 <= j < k ==> !Terminal(replies(j)) && j * interval <= timeout
    ensures var p := WaitFrom(jobId, replies, instances, interval, timeout, k);
      && (forall j :: 0 <= j < p.sleeps ==> !Terminal(replies(j)))
      && (forall j :: 0 <= j < p.queries ==> j * interval <= timeout)
      && (p.queries == p.sleeps ==> p.result == Err(TimedOut) && p.sleeps * interval > timeout)
      && (p.queries != p.sleeps ==>
            p.queries == p.sleeps + 1 && Terminal(replies(p.sleeps))
            && p.result == Ending(jobId, replies(p.sleeps), instances))
    decreases timeout + interval - k * interval
  {
    if k * interval <= timeout && !Terminal(replies(k)) {
      WaitFromSpec(jobId, replies, instances, interval, timeout, k + 1);
    }
  }

  /** `_wait_for_completion` polls until the first terminal reply within the timeout. */
  lemma WaitSpec(jobId: string, replies: nat -> StatusReply, instances: InstanceReply,
                 interval: nat, timeout: nat)
    requires interval > 0
    ensures var p := Wait(jobId, replies, instances, interval, timeout);
      && (forall j :: 0 <= j < p.sleeps ==> !Terminal(replies(j)))
      && (forall j :: 0 <= j < p.queries ==> j * interval <= timeout)
      && (p.queries == p.sleeps ==> p.result == Err(TimedOut) && p.sleeps * interval > timeout)
      && (p.queries != p.sleeps ==>
            p.queries == p.sleeps + 1 && Terminal(replies(p.sleeps))
            && p.result == Ending(jobId, replies(p.sleeps), instances))
  {
    WaitFromSpec(jobId, replies, instances, interval, timeout, 0);
  }

  /** The loop as written: check the clock, query, decide, sleep. */
  method WaitForCompletion(jobId: string, replies: nat -> StatusReply, instances: InstanceReply,
                           interval: nat, timeout: nat)
    returns (result: Result<Instance, FetchError>, queries: nat, sleeps: nat)
    requires interval > 0
    ensures Polled(result, queries, sleeps) == Wait(jobId, replies, instances, interval, timeout)
  {
    var elapsed := 0;
    queries, sleeps := 0, 0;
    while true
      invariant queries == sleeps && elapsed == sleeps * interval
      invariant Wait(jobId, replies, instances, interval, timeout)
             == WaitFrom(jobId, replies, instances, interval, timeout, sleeps)
      decreases timeout + interval - elapsed
    {
      if elapsed > timeout {
        return Err(TimedOut), queries, sleeps;
      }
      var reply := replies(queries);
      queries := queries + 1;
      if reply.QueryError? {
        return Err(StatusQueryFailed(reply.message)), queries, sleeps;
      }
      var verdict := Classify(reply.status);
      if verdict == Finished {
        return ResolveInstance(jobId, instances), queries, sleeps;
      } else if verdict == Failed {
        return Err(JobFailed(reply.status.value)), queries, sleeps;
      }
      sleeps := sleeps + 1;
      elapsed := elapsed + interval;
    }
  }

  /** Two `Running` replies and then `Success`. */
  function RunningTwiceThenSuccess(k: nat): StatusReply {
    if k < 2 then Status(Some("Running")) else Status(Some("Success"))
  }

  lemma RunningIsPending()
    ensures Classify(Some("Running")) == Pending
  {
    assert Upper("Running") == "RUNNING";
  }

  lemma SuccessIsFinished()
    ensures Classify(Some("Success")) == Finished
  {
    assert Upper("Success") == "SUCCESS";
  }

  /** Two non-terminal statuses and then SUCCESS, one second apart, finish after exactly two
      sleeps and three queries. */
  lemma TwoRunningThenSuccess(jobId: string, instances: InstanceReply, timeout: nat)
    requires timeout >= 2
    ensures var p := Wait(jobId, RunningTwiceThenSuccess, instances, 1, timeout);
      p.sleeps == 2 && p.queries == 3 && p.result == ResolveInstance(jobId, instances)
  {
    RunningIsPending();
    SuccessIsFinished();
    var replies := RunningTwiceThenSuccess;
    assert WaitFrom(jobId, replies, instances, 1, timeout, 2) == Polled(ResolveInstance(jobId, instances), 3, 2);
    assert WaitFrom(jobId, replies, instances, 1, timeout, 1) == WaitFrom(jobId, replies, instances, 1, timeout, 2);
    assert WaitFrom(jobId, replies, instances, 1, timeout, 0) == WaitFrom(jobId, replies, instances, 1, timeout, 1);
  }

  // ---------------------------------------------------------------------------------------------
  // Downloading

  /** An output descriptor; its `outputId` attribute may be missing. */
  datatype Descriptor = Descriptor(outputId: Option<string>)

  /** The reply of `getScheduledReportOutputInfo`: `item` as a list, `item` as one descriptor, or
      no `item` at all, in which case the reply is itself the descriptor. */
  datatype OutputInfo = Items(list: seq<Descriptor>) | Item(single: Descriptor) | Bare(descriptor: Descriptor)

  function Outputs(info: OutputInfo): (ds: seq<Descriptor>)
    ensures info.Items? ==> ds == info.list
    ensures !info.Items? ==> |ds| == 1
  {
    match info
    case Items(list) => list
    case Item(d) => [d]
    case Bare(d) => [d]
  }

  /** The output id `_download_output` fetches: the first descriptor's, when there is a
      descriptor and its id is present and not empty. */
  function SelectOutput(info: OutputInfo): (r: Result<string, FetchError>)
    ensures r == Err(NoOutput) <==> |Outputs(info)| == 0
    ensures r == Err(NoOutputId) <==>
      |Outputs(info)| > 0 && (Outputs(info)[0].outputId.None? || Outputs(info)[0].outputId.value == "")
    ensures r.Ok? ==> Outputs(info)[0].outputId == Some(r.value) && r.value != ""
  {
    var outputs := Outputs(info);
    if |outputs| == 0 then Err(NoOutput)
    else match outputs[0].outputId
      case None => Err(NoOutputId)
      case Some(id) => if id == "" then Err(NoOutputId) else Ok(id)
  }

  /** `missing = len % 4; if missing: data += "=" * (4 - missing)`. */
  function Pad(s: string): (r: string)
    ensures |r| % 4 == 0
    ensures s <= r && |r| - |s| <= 3
    ensures forall i :: |s| <= i < |r| ==> r[i] == '='
    ensures |s| % 4 == 0 ==> r == s
  {
    var missing := |s| % 4;
    if missing != 0 then s + seq(4 - missing, _ => '=') else s
  }

  /** The padding is the shortest that works: no shorter run of `=` reaches a multiple of 4. */
  lemma PadIsShortest(s: string, n: nat)
    requires |s| <= n < |Pad(s)|
    ensures n % 4 != 0
  {
  }

  /** Padding twice is padding once. */
  lemma PadIdempotent(s: string)
    ensures Pad(Pad(s)) == Pad(s)
  {
  }

  /** The fetched document: text to be base64-decoded, or bytes already. */
  datatype Document = Encoded(text: string) | Bytes(data: seq<bv8>)

  /** The document as handed to the decoder: text is padded, bytes pass through. */
  function Prepare(d: Document): (p: Document)
    ensures d.Bytes? ==> p == d
    ensures d.Encoded? ==> p.Encoded? && d.text <= p.text && |p.text| % 4 == 0
    ensures d.Encoded? ==> p == Encoded(Pad(d.text))
  {
    match d
    case Encoded(text) => Encoded(Pad(text))
    case Bytes(_) => d
  }
}

=== FILE: grouping.dfy ===
/** pandas' `groupby(...).cumcount()`: the 0-based position of each row among the earlier rows of
    its group, in row order. Both reports use it to find repeated invoice lines. */
module Grouping {

  /** The number of rows before row `i` that share its key. */
  function Earlier<K(==)>(keys: seq<K>, i: nat): nat
    requires i < |keys|
  {
    multiset(keys[..i])[keys[i]]
  }

  /** `cumcount()` as a function of the key column. */
  function CumCount<K(==)>(keys: seq<K>): (c: seq<nat>)
    ensures |c| == |keys|
    ensures forall i :: 0 <= i < |keys| ==> c[i] == Earlier(keys, i)
  {
    if |keys| == 0 then []
    else
      var n := |keys| - 1;
      var prefix := CumCount(keys[..n]);
      assert forall i :: 0 <= i < n ==> keys[..n][..i] == keys[..i];
      prefix + [multiset(keys[..n])[keys[n]]]
  }

  /** A one-pass formulation: one running count per key, kept in a map. */
  method CumCountByCounting<K(==)>(keys: seq<K>) returns (c: seq<nat>)
    ensures |c| == |keys|
    ensures forall i :: 0 <= i < |keys| ==> c[i] == Earlier(keys, i)
  {
    var counts: map<K, nat> := map[];
    c := [];
    var i := 0;
    while i < |keys|
      invariant 0 <= i <= |keys|
      invariant |c| == i
      invariant forall j :: 0 <= j < i ==> c[j] == Earlier(keys, j)
      invariant forall k :: k in counts <==> k in multiset(keys[..i])
      invariant forall k :: k in counts ==> counts[k] == multiset(keys[..i])[k]
    {
      var k := keys[i];
      var seen := if k in counts then counts[k] else 0;
      c := c + [seen];
      counts := counts[k := seen + 1];
      assert keys[..i + 1] == keys[..i] + [k];
      i := i + 1;
    }
  }

  /** A row is the first of its group exactly when no earlier row shares its key. */
  lemma FirstOfGroup<K>(keys: seq<K>, i: nat)
    requires i < |keys|
    ensures Earlier(keys, i) == 0 <==> forall j :: 0 <= j < i ==> keys[j] != keys[i]
  {
    if Earlier(keys, i) == 0 {
      forall j | 0 <= j < i
        ensures keys[j] != keys[i]
      {
        assert keys[j] in keys[..i];
      }
    } else {
      assert keys[i] in multiset(keys[..i]);
      assert keys[i] in keys[..i];
    }
  }

  /** Between two rows of the same group the count grows by the number of rows of that group in
      between, the earlier row included: it rises strictly, one step per row. */
  lemma {:induction false} CountGrows<K>(keys: seq<K>, i: nat, j: nat)
    requires i < j < |keys| && keys[i] == keys[j]
    ensures Earlier(keys, j) == Earlier(keys, i) + multiset(keys[i..j])[keys[i]]
    ensures Earlier(keys, j) > Earlier(keys, i)
  {
    assert keys[..j] == keys[..i] + keys[i..j];
    assert keys[i..j] == [keys[i]] + keys[i + 1..j];
  }

  /** The rows before position `n` that carry the key `x`. */
  function Positions<K(==)>(keys: seq<K>, x: K, n: nat): set<nat>
    requires n <= |keys|
  {
    set j | 0 <= j < n && keys[j] == x
  }

  lemma {:induction false} CountIsPositions<K>(keys: seq<K>, x: K, n: nat)
    requires n <= |keys|
    ensures multiset(keys[..n])[x] == |Positions(keys, x, n)|
  {
    if n > 0 {
      CountIsPositions(keys, x, n - 1);
      assert keys[..n] == keys[..n - 1] + [keys[n - 1]];
      var before := Positions(keys, x, n - 1);
      assert n - 1 !in before;
      if keys[n - 1] == x {
        assert Positions(keys, x, n) == before + {n - 1};
      } else {
        assert Positions(keys, x, n) == before;
      }
    }
  }

  /** `cumcount()` counts rows: the count of row `i` is the number of earlier row positions whose
      key equals its own. */
  lemma EarlierCountsRows<K>(keys: seq<K>, i: nat)
    requires i < |keys|
    ensures Earlier(keys, i) == |Positions(keys, keys[i], i)|
  {
    CountIsPositions(keys, keys[i], i);
  }
}

=== FILE: naming.dfy ===
/** The download names of the three reports and the name-to-report map both processors return. */
module Naming {
  import opened Text
  import opened Tables

  /** The three reports, by the word their file names start with. */
  datatype Kind = CombinedReport | ProcessedReport | ProcessedDetailedReport

  function KindName(k: Kind): string {
    match k
    case CombinedReport => "Combined"
    case ProcessedReport => "Processed"
    case ProcessedDetailedReport => "ProcessedDetailed"
  }

  /** The part of a file name in front of the timestamp: `{Kind}_PO_Report_{from}_to_{to}_`
      with every `-` removed from both dates. */
  function Head(k: Kind, from: string, to: string): (h: string)
    ensures KindName(k) <= h
    ensures h[|KindName(k)|..] == "_PO_Report_" + RemoveAll(from, '-') + "_to_" + RemoveAll(to, '-') + "_"
    ensures '-' !in h
  {
    var kind := KindName(k);
    var rest := "_PO_Report_" + RemoveAll(from, '-') + "_to_" + RemoveAll(to, '-') + "_";
    assert '-' !in kind;
    assert '-' !in rest;
    assert (kind + rest)[..|kind|] == kind;
    assert (kind + rest)[|kind|..] == rest;
    kind + rest
  }

  /** `f"{Kind}_PO_Report_{from_clean}_to_{to_clean}_{date_str}.csv"`, where the two dates have
      every `-` removed and `stamp` is the shared `%Y%m%d_%H%M%S` timestamp. */
  function FileName(k: Kind, from: string, to: string, stamp: string): (name: string)
    ensures KindName(k) <= name
    ensures |name| >= |stamp| + 4 && name[|name| - |stamp| - 4..] == stamp + ".csv"
    ensures '-' in name <==> '-' in stamp
  {
    var head := Head(k, from, to);
    var name := head + (stamp + ".csv");
    assert name[..|head|] == head;
    assert name[|head|..] == stamp + ".csv";
    name
  }

  lemma FileNameSplits(k: Kind, from: string, to: string, stamp: string)
    ensures FileName(k, from, to, stamp) == Head(k, from, to) + stamp + ".csv"
  {
  }

  /** Different reports of one run never share a name: the names differ in their first letter,
      or, for `Processed` and `ProcessedDetailed`, right after the common word. */
  lemma FileNamesDistinct(k1: Kind, k2: Kind, from: string, to: string, stamp: string)
    requires k1 != k2
    ensures FileName(k1, from, to, stamp) != FileName(k2, from, to, stamp)
  {
    var n1 := FileName(k1, from, to, stamp);
    var n2 := FileName(k2, from, to, stamp);
    KindThenUnderscore(k1, from, to, stamp);
    KindThenUnderscore(k2, from, to, stamp);
    if k1 == CombinedReport || k2 == CombinedReport {
      assert n1[0] != n2[0];
    } else {
      assert n1[9] != n2[9];
    }
  }

  /** A name spells its report kind and then an underscore. */
  lemma KindThenUnderscore(k: Kind, from: string, to: string, stamp: string)
    ensures var n := FileName(k, from, to, stamp);
      |n| > |KindName(k)| && n[..|KindName(k)|] == KindName(k) && n[|KindName(k)|] == '_'
  {
    var h := Head(k, from, to);
    var m := |KindName(k)|;
    FileNameSplits(k, from, to, stamp);
    assert h[m..][0] == '_';
    assert FileName(k, from, to, stamp)[m] == h[m];
  }

  /** Two runs on the same dates give the same report the same name only at the same timestamp. */
  lemma FileNameDeterminesStamp(k: Kind, from: string, to: string, s1: string, s2: string)
    requires FileName(k, from, to, s1) == FileName(k, from, to, s2)
    ensures s1 == s2
  {
    var head := Head(k, from, to);
    FileNameSplits(k, from, to, s1);
    FileNameSplits(k, from, to, s2);
    var n := FileName(k, from, to, s1);
    assert |s1| == |s2|;
    assert n[|head|..|head| + |s1|] == s1;
    assert n[|head|..|head| + |s2|] == s2;
  }

  /** `save_reports_to_csv` and `save_reports_streaming`: the three reports under their names. */
  function SaveReports(combined: Table, processed: Table, detailed: Table,
                       from: string, to: string, stamp: string): (files: map<string, Table>)
    ensures |files.Keys| == 3
    ensures files.Keys == {FileName(CombinedReport, from, to, stamp),
                           FileName(ProcessedReport, from, to, stamp),
                           FileName(ProcessedDetailedReport, from, to, stamp)}
    ensures files[FileName(CombinedReport, from, to, stamp)] == combined
    ensures files[FileName(ProcessedReport, from, to, stamp)] == processed
    ensures files[FileName(ProcessedDetailedReport, from, to, stamp)] == detailed
  {
    var c := FileName(CombinedReport, from, to, stamp);
    var p := FileName(ProcessedReport, from, to, stamp);
    var d := FileName(ProcessedDetailedReport, from, to, stamp);
    FileNamesDistinct(CombinedReport, ProcessedReport, from, to, stamp);
    FileNamesDistinct(CombinedReport, ProcessedDetailedReport, from, to, stamp);
    FileNamesDistinct(ProcessedReport, ProcessedDetailedReport, from, to, stamp);
    assert |{c, p, d}| == 3 by {
      assert {c, p, d} == {c} + {p} + {d};
    }
    map[c := combined, p := processed, d := detailed]
  }
}

=== FILE: ordering.dfy ===
/** The order in which pandas sorts group keys: per column, numbers before text (its fallback for
    a column that mixes both), numbers by value and text as Python compares `str`; across the key
    columns, lexicographically. */
module Ordering {
  import opened Tables

  /** Python's `<` on `str`: code point by code point, a proper prefix first. */
  predicate StringLess(a: string, b: string) {
    if |a| == 0 then |b| > 0
    else if |b| == 0 then false
    else a[0] < b[0] || (a[0] == b[0] && StringLess(a[1..], b[1..]))
  }

  lemma {:induction false} StringLessIrreflexive(a: string)
    ensures !StringLess(a, a)
  {
    if |a| > 0 {
      StringLessIrreflexive(a[1..]);
    }
  }

  lemma {:induction false} StringLessTransitive(a: string, b: string, c: string)
    requires StringLess(a, b) && StringLess(b, c)
    ensures StringLess(a, c)
  {
    if |a| > 0 && a[0] == b[0] && b[0] == c[0] {
      StringLessTransitive(a[1..], b[1..], c[1..]);
    }
  }

  lemma {:induction false} StringLessTotal(a: string, b: string)
    requires a != b
    ensures StringLess(a, b) || StringLess(b, a)
  {
    if |a| > 0 && |b| > 0 && a[0] == b[0] {
      assert a == [a[0]] + a[1..] && b == [b[0]] + b[1..];
      StringLessTotal(a[1..], b[1..]);
    }
  }

  /** The order of one key column: blanks (which filling removes) first, then numbers by value,
      then text. */
  predicate CellLess(a: Cell, b: Cell) {
    match (a, b)
    case (Blank, Blank) => false
    case (Blank, _) => true
    case (Num(x), Num(y)) => x < y
    case (Num(_), Text(_)) => true
    case (Text(x), Text(y)) => StringLess(x, y)
    case (_, _) => false
  }

  lemma CellLessIrreflexive(a: Cell)
    ensures !CellLess(a, a)
  {
    if a.Text? {
      StringLessIrreflexive(a.s);
    }
  }

  lemma CellLessTransitive(a: Cell, b: Cell, c: Cell)
    requires CellLess(a, b) && CellLess(b, c)
    ensures CellLess(a, c)
  {
    if a.Text? && b.Text? && c.Text? {
      StringLessTransitive(a.s, b.s, c.s);
    }
  }

  lemma CellLessTotal(a: Cell, b: Cell)
    requires a != b
    ensures CellLess(a, b) || CellLess(b, a)
  {
    if a.Text? && b.Text? {
      StringLessTotal(a.s, b.s);
    }
  }

  /** The order of whole keys: by the first column, ties broken by the next, and so on. */
  predicate CellsLess(a: seq<Cell>, b: seq<Cell>) {
    if |a| == 0 then |b| > 0
    else if |b| == 0 then false
    else CellLess(a[0], b[0]) || (a[0] == b[0] && CellsLess(a[1..], b[1..]))
  }

  lemma {:induction false} CellsLessIrreflexive(a: seq<Cell>)
    ensures !CellsLess(a, a)
  {
    if |a| > 0 {
      CellLessIrreflexive(a[0]);
      CellsLessIrreflexive(a[1..]);
    }
  }

  lemma {:induction false} CellsLessTransitive(a: seq<Cell>, b: seq<Cell>, c: seq<Cell>)
    requires CellsLess(a, b) && CellsLess(b, c)
    ensures CellsLess(a, c)
  {
    if |a| > 0 && |b| > 0 && |c| > 0 {
      if CellLess(a[0], b[0]) && CellLess(b[0], c[0]) {
        CellLessTransitive(a[0], b[0], c[0]);
      } else if a[0] == b[0] && b[0] == c[0] {
        CellsLessTransitive(a[1..], b[1..], c[1..]);
      }
    }
  }

  lemma {:induction false} CellsLessTotal(a: seq<Cell>, b: seq<Cell>)
    requires a != b
    ensures CellsLess(a, b) || CellsLess(b, a)
  {
    if |a| > 0 && |b| > 0 {
      if a[0] == b[0] {
        assert a == [a[0]] + a[1..] && b == [b[0]] + b[1..];
        CellsLessTotal(a[1..], b[1..]);
      } else {
        CellLessTotal(a[0], b[0]);
      }
    }
  }
}

=== FILE: processor.dfy ===
/** `process_po_report`: combine the sheets, stamp the combined frame, and derive the aggregated
    and the detailed reports from it, each stamped with its own report type. */
module Processor {
  import opened Wrappers
  import opened Tables
  import opened Combiner
  import opened Records
  import opened Aggregation
  import opened Detail

  // ---------------------------------------------------------------------------------------------
  // The aggregated report as a frame

  /** The labels of the aggregated report: the grouping keys and the summed amounts as
      `reset_index` lays them out, then the three derived columns. */
  const ProcessedColumns: seq<string> := KeyColumns + AmountColumns + ["conversion rate", "diff", "diff InSAR"]

  /** No label of the aggregated report is a provenance label. */
  lemma ProcessedLabelsAreNotProvenance()
    ensures forall n :: n in MetadataColumns ==> n !in ProcessedColumns
  {
    forall n | n in MetadataColumns
      ensures n !in ProcessedColumns
    {
      assert ProcessedColumns == [PoNumber, ChargeAccount, Supplier, Currency, InvoiceNumber, Records.InvoiceLine,
        LineAmount, LineFunctional, AmountReceived, AmountTransaction, AmountFunctional,
        "conversion rate", "diff", "diff InSAR"];
    }
  }

  /** One aggregated row under `ProcessedColumns`. */
  function AggCells(r: AggRow): (cells: Row)
    ensures |cells| == |ProcessedColumns|
  {
    [r.key.po, r.key.account, r.key.supplier, r.key.currency, r.key.invoice, r.key.invoiceLine,
     Num(r.lineAmount), r.lineFunctional,
     Num(r.sums.received), Num(r.sums.transaction), Num(r.sums.functional),
     OptCell(r.rate), Num(r.diff), OptCell(r.diffLocal)]
  }

  /** The value the aggregated report shows under the label `name`, field by field; `None` for a
      label the report does not have. */
  function AggField(r: AggRow, name: string): Option<Cell> {
    if name == PoNumber then Some(r.key.po)
    else if name == ChargeAccount then Some(r.key.account)
    else if name == Supplier then Some(r.key.supplier)
    else if name == Currency then Some(r.key.currency)
    else if name == InvoiceNumber then Some(r.key.invoice)
    else if name == Records.InvoiceLine then Some(r.key.invoiceLine)
    else if name == LineAmount then Some(Num(r.lineAmount))
    else if name == LineFunctional then Some(r.lineFunctional)
    else if name == AmountReceived then Some(Num(r.sums.received))
    else if name == AmountTransaction then Some(Num(r.sums.transaction))
    else if name == AmountFunctional then Some(Num(r.sums.functional))
    else if name == "conversion rate" then Some(OptCell(r.rate))
    else if name == "diff" then Some(Num(r.diff))
    else if name == "diff InSAR" then Some(OptCell(r.diffLocal))
    else None
  }

  /** Every cell of an aggregated row sits under the label of the field it shows. */
  lemma AggCellsLabelled(r: AggRow)
    ensures forall j :: 0 <= j < |ProcessedColumns| ==> AggField(r, ProcessedColumns[j]) == Some(AggCells(r)[j])
  {
  }

  function RenderProcessed(out: seq<AggRow>): (t: Table)
    ensures WellFormed(t) && t.columns == ProcessedColumns
    ensures |t.rows| == |out| && forall i :: 0 <= i < |out| ==> t.rows[i] == AggCells(out[i])
  {
    Table(ProcessedColumns, seq(|out|, i requires 0 <= i < |out| => AggCells(out[i])))
  }

  // ---------------------------------------------------------------------------------------------
  // The two reports of a frame without provenance columns

  /** The aggregated report of a frame: it fails when a label it reads is missing, when an
      arithmetic column holds text, or when the PO numbers mix numbers and text. */
  function Processed(t: Table): (r: Result<Table, ReportError>)
    requires WellFormed(t)
    ensures r.Ok? ==> WellFormed(r.value) && r.value.columns == ProcessedColumns
    ensures r.Err? <==> Extract(t).Err? || MixedPo(GroupSum(Extract(t).value))
    ensures r.Ok? ==> r.value == RenderProcessed(Aggregate(Extract(t).value).value)
  {
    var records :- Extract(t);
    var out :- Aggregate(records);
    Ok(RenderProcessed(out))
  }

  /** The detailed report of a frame: it fails only when the records cannot be read. */
  function DetailedOf(t: Table): (r: Result<Table, ReportError>)
    requires WellFormed(t)
    ensures r.Err? <==> Extract(t).Err?
    ensures r.Ok? ==> WellFormed(r.value) && r.value.columns == t.columns + DetailColumns
    ensures r.Ok? ==> |r.value.rows| == |t.rows|
    ensures r.Ok? ==> forall i :: 0 <= i < |t.rows| ==> r.value.rows[i][..|t.columns|] == t.rows[i]
    ensures r.Ok? ==> r.value == RenderDetailed(t.columns, Detailed(Extract(t).value))
  {
    var records :- Extract(t);
    DetailedKeepsCells(t, records);
    Ok(RenderDetailed(t.columns, Detailed(records)))
  }

  /** The detailed report of records read from a frame starts every row with that frame's row. */
  lemma DetailedKeepsCells(t: Table, records: seq<Record>)
    requires WellFormed(t) && |records| == |t.rows|
    requires forall i :: 0 <= i < |t.rows| ==> records[i].cells == t.rows[i]
    ensures forall i :: 0 <= i < |records| ==> |Detailed(records)[i].record.cells| == |t.columns|
    ensures forall i :: 0 <= i < |t.rows| ==>
      RenderDetailed(t.columns, Detailed(records)).rows[i][..|t.columns|] == t.rows[i]
  {
  }

  // ---------------------------------------------------------------------------------------------
  // The reports of the stamped combined frame

  /** `_create_processed_report`: drop the provenance columns, then aggregate. */
  function CreateProcessed(combined: Table): (r: Result<Table, ReportError>)
    requires WellFormed(combined)
    ensures (exists n :: n in MetadataColumns && n !in combined.columns) ==> r.Err?
    ensures r.Ok? ==> WellFormed(r.value) && r.value.columns == ProcessedColumns
    ensures r.Ok? ==> forall n :: n in MetadataColumns ==> n !in r.value.columns
  {
    ProcessedLabelsAreNotProvenance();
    var t :- DropColumns(combined, MetadataColumns);
    Processed(t)
  }

  /** `_create_ProcessedDetailed_report`: drop the provenance columns, then detail. */
  function CreateDetailed(combined: Table): (r: Result<Table, ReportError>)
    requires WellFormed(combined)
    ensures (exists n :: n in MetadataColumns && n !in combined.columns) ==> r.Err?
    ensures r.Ok? ==> WellFormed(r.value) && forall n :: n in MetadataColumns ==> n !in r.value.columns
  {
    var t :- DropColumns(combined, MetadataColumns);
    assert forall n :: n in MetadataColumns ==> n !in t.columns + DetailColumns by {
      forall n | n in MetadataColumns
        ensures n !in t.columns + DetailColumns
      {
        assert n !in DetailColumns;
      }
    }
    DetailedOf(t)
  }

  /** Neither report depends on the provenance of the frame it is derived from: deriving it from
      the stamped frame is deriving it from the unstamped one. */
  lemma StampIrrelevant(t: Table, s: Stamp)
    requires WellFormed(t) && AddStamp(t, s).Ok?
    ensures CreateProcessed(AddStamp(t, s).value) == Processed(t)
    ensures CreateDetailed(AddStamp(t, s).value) == DetailedOf(t)
  {
    DropUndoesStamp(t, s);
  }

  // ---------------------------------------------------------------------------------------------
  // The whole run

  /** The three reports of one run, and the sheets the combiner skipped. */
  datatype Reports = Reports(combined: Table, processed: Table, detailed: Table, skips: seq<Skip>)

  function StampFor(reportType: string, from: string, to: string, generated: string): (s: Stamp)
    ensures s.reportType == reportType && s.generated == generated
    ensures s.dateRange == DateRange(from, to)
  {
    Stamp(reportType, DateRange(from, to), generated)
  }

  /** `process_po_report` on the sheets of a workbook, with the one generation time it reads.
      A successful run's three reports are the combined frame stamped `Combined`, and the
      aggregated and detailed reports of the unstamped combined frame stamped `Processed` and
      `ProcessedDetailed`, all with the same date range and generation time. */
  function ProcessReport(sheets: seq<Sheet>, from: string, to: string, generated: string): (r: Result<Reports, ReportError>)
    ensures r.Ok? ==> WellFormed(r.value.combined) && WellFormed(r.value.processed) && WellFormed(r.value.detailed)
    ensures r.Ok? ==> |sheets| > 0 && r.value.skips == Combine(sheets).value.skips
    ensures r.Ok? ==> var t := Combine(sheets).value.table;
      && AddStamp(t, StampFor("Combined", from, to, generated)).Ok?
      && r.value.combined == AddStamp(t, StampFor("Combined", from, to, generated)).value
      && Processed(t).Ok? && DetailedOf(t).Ok?
      && AddStamp(Processed(t).value, StampFor("Processed", from, to, generated)).Ok?
      && r.value.processed == AddStamp(Processed(t).value, StampFor("Processed", from, to, generated)).value
      && AddStamp(DetailedOf(t).value, StampFor("ProcessedDetailed", from, to, generated)).Ok?
      && r.value.detailed == AddStamp(DetailedOf(t).value, StampFor("ProcessedDetailed", from, to, generated)).value
  {
    var c :- Combine(sheets);
    var combined :- AddStamp(c.table, StampFor("Combined", from, to, generated));
    StampIrrelevant(c.table, StampFor("Combined", from, to, generated));
    var processed :- CreateProcessed(combined);
    // The detailed report reads the same records, so it cannot fail once the aggregate has not.
    var detailed := CreateDetailed(combined).value;
    Ok(Reports(combined,
               Stamped(processed, StampFor("Processed", from, to, generated)),
               Stamped(detailed, StampFor("ProcessedDetailed", from, to, generated)),
               c.skips))
  }

  /** Stamping a derived report, which cannot fail: no report label is a provenance label. */
  function Stamped(t: Table, s: Stamp): (r: Table)
    requires WellFormed(t) && forall n :: n in MetadataColumns ==> n !in t.columns
    ensures AddStamp(t, s) == Ok(r)
  {
    AddStamp(t, s).value
  }

  /** No report label is a provenance label, so stamping a derived report never fails. */
  lemma DerivedStampsSucceed(t: Table, s: Stamp)
    requires WellFormed(t)
    requires forall n :: n in MetadataColumns ==> n !in t.columns
    ensures Processed(t).Ok? ==> AddStamp(Processed(t).value, s).Ok?
    ensures DetailedOf(t).Ok? ==> AddStamp(DetailedOf(t).value, s).Ok?
  {
    assert forall n :: n in MetadataColumns ==> n !in ProcessedColumns;
    assert forall n :: n in MetadataColumns ==> n !in DetailColumns;
  }

  /** A run fails exactly when the workbook has no sheet, when the first sheet already has a
      provenance label, when the combined records cannot be read, or when their PO numbers mix
      numbers and text. */
  lemma ProcessReportFails(sheets: seq<Sheet>, from: string, to: string, generated: string)
    ensures ProcessReport(sheets, from, to, generated).Err? <==>
      || |sheets| == 0
      || (var t := Combine(sheets).value.table;
          || (exists n :: n in MetadataColumns && n in t.columns)
          || Extract(t).Err?
          || MixedPo(GroupSum(Extract(t).value)))
  {
    if |sheets| > 0 {
      var c := Combine(sheets).value;
      var stamp := StampFor("Combined", from, to, generated);
      if AddStamp(c.table, stamp).Ok? {
        StampIrrelevant(c.table, stamp);
        DerivedStampsSucceed(c.table, StampFor("Processed", from, to, generated));
        DerivedStampsSucceed(c.table, StampFor("ProcessedDetailed", from, to, generated));
      }
    }
  }
}

=== FILE: records.dfy ===
/** The columns of the purchase-order export that the two reports read, and the projection of a
    combined frame's rows onto them. */
module Records {
  import opened Wrappers
  import opened Tables

  /** The labels the reports select, spelled as in the export ("Maount" included). */
  const PoNumber := "Po Number"
  const ChargeAccount := "POCharge A/c"
  const Supplier := "Supplier"
  const Currency := "Currency"
  const InvoiceNumber := "Invoice Number"
  const InvoiceLine := "Invoice Line Number"
  const LineAmount := "Line Amount"
  const LineFunctional := "Line Maount in Functional Currency"
  const AmountReceived := "Amount Received"
  const AmountTransaction := "Amount in transaction Currency"
  const AmountFunctional := "Amount in Functional Currency"

  /** The eight grouping keys of the aggregated report, in order. */
  const KeyColumns: seq<string> :=
    [PoNumber, ChargeAccount, Supplier, Currency, InvoiceNumber, InvoiceLine, LineAmount, LineFunctional]

  /** The three amounts the aggregated report sums. */
  const AmountColumns: seq<string> := [AmountReceived, AmountTransaction, AmountFunctional]

  const ReadColumns: seq<string> := KeyColumns + AmountColumns

  /** One row of the combined frame, with the fields the reports read picked out of it. `cells` is
      the whole row (the detailed report carries it through unchanged). An amount is `None` when
      its cell is blank. */
  datatype Record = Record(
    cells: Row,
    po: Cell, account: Cell, supplier: Cell, currency: Cell,
    invoice: Cell, invoiceLine: Cell,
    lineAmount: Option<real>, lineFunctional: Cell,
    received: Option<real>, transaction: Option<real>, functional: Option<real>)

  /** A cell of a column the reports do arithmetic on. Text there makes pandas raise. */
  function Amount(c: Cell, column: string): (r: Result<Option<real>, ReportError>)
    ensures r.Err? <==> c.Text?
    ensures r.Ok? ==> (r.value.None? <==> c.Blank?)
    ensures r.Ok? && c.Num? ==> r.value == Some(c.n)
  {
    match c
    case Blank => Ok(None)
    case Num(x) => Ok(Some(x))
    case Text(_) => Err(NonNumeric(column))
  }

  /** The position of each label the reports read; a missing label is pandas' `KeyError`. */
  function Locate(columns: seq<string>, wanted: seq<string>): (r: Result<seq<nat>, ReportError>)
    ensures r.Err? <==> exists n :: n in wanted && n !in columns
    ensures r.Ok? ==> |r.value| == |wanted|
    ensures r.Ok? ==> forall k :: 0 <= k < |wanted| ==> r.value[k] < |columns| && columns[r.value[k]] == wanted[k]
  {
    if |wanted| == 0 then Ok([])
    else match IndexOf(columns, wanted[0])
      case None => Err(MissingColumn(wanted[0]))
      case Some(i) =>
        match Locate(columns, wanted[1..])
        case Err(e) => Err(e)
        case Ok(rest) => Ok([i] + rest)
  }

  /** The record of one row, given the positions of the eleven labels. */
  function ExtractRow(row: Row, p: seq<nat>): (r: Result<Record, ReportError>)
    requires |p| == |ReadColumns|
    requires forall k :: 0 <= k < |p| ==> p[k] < |row|
    ensures r.Err? <==> row[p[6]].Text? || row[p[8]].Text? || row[p[9]].Text? || row[p[10]].Text?
    ensures r.Ok? ==> var x := r.value;
      && x.cells == row
      && x.po == row[p[0]] && x.account == row[p[1]] && x.supplier == row[p[2]]
      && x.currency == row[p[3]] && x.invoice == row[p[4]] && x.invoiceLine == row[p[5]]
      && x.lineFunctional == row[p[7]]
      && Amount(row[p[6]], LineAmount) == Ok(x.lineAmount)
      && Amount(row[p[8]], AmountReceived) == Ok(x.received)
      && Amount(row[p[9]], AmountTransaction) == Ok(x.transaction)
      && Amount(row[p[10]], AmountFunctional) == Ok(x.functional)
  {
    match (Amount(row[p[6]], LineAmount), Amount(row[p[8]], AmountReceived),
           Amount(row[p[9]], AmountTransaction), Amount(row[p[10]], AmountFunctional))
    case (Ok(line), Ok(received), Ok(transaction), Ok(functional)) =>
      Ok(Record(row, row[p[0]], row[p[1]], row[p[2]], row[p[3]], row[p[4]], row[p[5]],
                line, row[p[7]], received, transaction, functional))
    case (Err(e), _, _, _) => Err(e)
    case (_, Err(e), _, _) => Err(e)
    case (_, _, Err(e), _) => Err(e)
    case (_, _, _, Err(e)) => Err(e)
  }

  /** Text in one of the four columns the reports do arithmetic on. */
  predicate TextAmount(row: Row, p: seq<nat>)
    requires |p| == |ReadColumns|
    requires forall k :: 0 <= k < |p| ==> p[k] < |row|
  {
    row[p[6]].Text? || row[p[8]].Text? || row[p[9]].Text? || row[p[10]].Text?
  }

  function ExtractRows(rows: seq<Row>, p: seq<nat>): (r: Result<seq<Record>, ReportError>)
    requires |p| == |ReadColumns|
    requires forall i, k :: 0 <= i < |rows| && 0 <= k < |p| ==> p[k] < |rows[i]|
    ensures r.Err? <==> exists i :: 0 <= i < |rows| && ExtractRow(rows[i], p).Err?
    ensures r.Ok? ==> |r.value| == |rows|
    ensures r.Ok? ==> forall i :: 0 <= i < |rows| ==> ExtractRow(rows[i], p) == Ok(r.value[i])
  {
    if |rows| == 0 then Ok([])
    else match ExtractRow(rows[0], p)
      case Err(e) => Err(e)
      case Ok(x) =>
        var rest := ExtractRows(rows[1..], p);
        ExtractRowsCons(rows, p, x, rest);
        match rest
        case Err(e) => Err(e)
        case Ok(xs) => Ok([x] + xs)
  }

  /** How the first row's record and the rest's records make up all the rows' records. */
  lemma ExtractRowsCons(rows: seq<Row>, p: seq<nat>, x: Record, rest: Result<seq<Record>, ReportError>)
    requires |p| == |ReadColumns| && |rows| > 0
    requires forall i, k :: 0 <= i < |rows| && 0 <= k < |p| ==> p[k] < |rows[i]|
    requires ExtractRow(rows[0], p) == Ok(x)
    requires rest.Err? <==> exists i :: 0 <= i < |rows| - 1 && ExtractRow(rows[1..][i], p).Err?
    requires rest.Ok? ==> |rest.value| == |rows| - 1
    requires rest.Ok? ==> forall i :: 0 <= i < |rows| - 1 ==> ExtractRow(rows[1..][i], p) == Ok(rest.value[i])
    ensures rest.Err? <==> exists i :: 0 <= i < |rows| && ExtractRow(rows[i], p).Err?
    ensures rest.Ok? ==> forall i :: 0 <= i < |rows| ==> ExtractRow(rows[i], p) == Ok(([x] + rest.value)[i])
  {
    if rest.Err? {
      var i :| 0 <= i < |rows| - 1 && ExtractRow(rows[1..][i], p).Err?;
      assert ExtractRow(rows[i + 1], p).Err?;
    } else {
      forall i | 0 <= i < |rows|
        ensures ExtractRow(rows[i], p) == Ok(([x] + rest.value)[i])
      {
        if i > 0 {
          assert rows[i] == rows[1..][i - 1];
        }
      }
    }
  }

  /** The frame's rows as records, in order: fails when a label the reports read is missing or
      when one of the four arithmetic columns holds text. */
  function Extract(t: Table): (r: Result<seq<Record>, ReportError>)
    requires WellFormed(t)
    ensures (exists n :: n in ReadColumns && n !in t.columns) ==> r.Err?
    ensures r.Ok? ==> |r.value| == |t.rows|
    ensures r.Ok? ==> forall i :: 0 <= i < |t.rows| ==> r.value[i].cells == t.rows[i]
    ensures Locate(t.columns, ReadColumns).Ok? ==> var p := Locate(t.columns, ReadColumns).value;
      && (r.Err? <==> exists i :: 0 <= i < |t.rows| && TextAmount(t.rows[i], p))
      && (r.Ok? ==> forall i :: 0 <= i < |t.rows| ==> ExtractRow(t.rows[i], p) == Ok(r.value[i]))
  {
    match Locate(t.columns, ReadColumns)
    case Err(e) => Err(e)
    case Ok(p) => ExtractRows(t.rows, p)
  }
}

=== FILE: streaming.dfy ===
/** The memory-optimised pipeline: the combined frame is stamped sheet by sheet as it is written,
    both reports are derived from the combined output, and the three results come back in a map
    keyed `combined`, `processed` and `detailed`. Each stage reads its own generation time. */
module Streaming {
  import opened Wrappers
  import opened Tables
  import opened Combiner
  import opened Processor
  import opened Naming

  /** The stamped rows written once the first `i` sheets have been handled. */
  function Written(sheets: seq<Sheet>, i: nat, stamp: Stamp): seq<Row>
    requires 1 <= i <= |sheets|
  {
    var first := ReadWithHeader(sheets[0]);
    StampRows(first.rows + AppendSheets(sheets[1..i], |first.columns|).rows, stamp)
  }

  /** Handling sheet `i` writes its stamped rows after the others when its width matches. */
  lemma WrittenStep(sheets: seq<Sheet>, i: nat, stamp: Stamp)
    requires 1 <= i < |sheets|
    ensures var width := |ReadWithHeader(sheets[0]).columns|;
      Written(sheets, i + 1, stamp)
      == Written(sheets, i, stamp) + (if Columns(sheets[i]) == width then StampRows(SheetRows(sheets[i]), stamp) else [])
  {
    var first := ReadWithHeader(sheets[0]);
    var width := |first.columns|;
    var s := sheets[i];
    var before := AppendSheets(sheets[1..i], width).rows;
    var extra := if Columns(s) == width then SheetRows(s) else [];
    AppendStep(sheets, i, width);
    StampedSnoc(first.rows, before, extra, stamp);
  }

  /** Handling sheet `i` appends its rows when its width matches. */
  lemma AppendStep(sheets: seq<Sheet>, i: nat, width: nat)
    requires 1 <= i < |sheets|
    ensures AppendSheets(sheets[1..i + 1], width).rows
         == AppendSheets(sheets[1..i], width).rows + (if Columns(sheets[i]) == width then SheetRows(sheets[i]) else [])
  {
    assert sheets[1..i + 1] == sheets[1..i] + [sheets[i]];
    AppendSheetsSnoc(sheets[1..i], sheets[i], width);
  }

  /** Stamping rows appended behind a head is stamping them on their own. */
  lemma StampedSnoc(head: seq<Row>, before: seq<Row>, extra: seq<Row>, stamp: Stamp)
    ensures StampRows(head + (before + extra), stamp) == StampRows(head + before, stamp) + StampRows(extra, stamp)
  {
    assert head + (before + extra) == (head + before) + extra;
    StampRowsAppend(head + before, extra, stamp);
  }

  /** Once every sheet is handled, the written frame is the stamped combination. */
  lemma WrittenAll(sheets: seq<Sheet>, stamp: Stamp)
    requires |sheets| > 0 && AddStamp(ReadWithHeader(sheets[0]), stamp).Ok?
    ensures AddStamp(Combine(sheets).value.table, stamp)
         == Ok(Table(MetadataColumns + ReadWithHeader(sheets[0]).columns, Written(sheets, |sheets|, stamp)))
  {
    assert sheets[1..|sheets|] == sheets[1..];
  }

  /** `_combine_excel_sheets_streaming`: the first sheet is read with its header and stamped;
      every later sheet of the first sheet's width is stamped and appended, the others are
      dropped. The result is the stamped combination of the whole workbook. */
  method CombineStreaming(sheets: seq<Sheet>, from: string, to: string, generated: string)
    returns (r: Result<Table, ReportError>)
    ensures |sheets| == 0 ==> r == Err(NoSheets)
    ensures |sheets| > 0 ==> r == AddStamp(Combine(sheets).value.table, StampFor("Combined", from, to, generated))
  {
    if |sheets| == 0 {
      return Err(NoSheets);
    }
    var first := ReadWithHeader(sheets[0]);
    var stamp := StampFor("Combined", from, to, generated);
    var head := AddStamp(first, stamp);
    if head.Err? {
      AddStampFailsOnLabels(first, Combine(sheets).value.table, stamp);
      return Err(head.error);
    }
    var width := |first.columns|;
    var rows := head.value.rows;
    assert rows == Written(sheets, 1, stamp) by {
      assert first.rows + [] == first.rows;
    }
    var i := 1;
    while i < |sheets|
      invariant 1 <= i <= |sheets|
      invariant rows == Written(sheets, i, stamp)
    {
      var s := sheets[i];
      WrittenStep(sheets, i, stamp);
      if Columns(s) == width {
        rows := rows + StampRows(SheetRows(s), stamp);
      }
      i := i + 1;
    }
    WrittenAll(sheets, stamp);
    r := Ok(Table(MetadataColumns + first.columns, rows));
  }

  /** `process_po_report_streaming`, with the generation times of its three stages. */
  method ProcessStreaming(sheets: seq<Sheet>, from: string, to: string,
                          combinedAt: string, processedAt: string, detailedAt: string)
    returns (r: Result<map<string, Table>, ReportError>)
    ensures r.Ok? ==> r.value.Keys == {"combined", "processed", "detailed"}
    ensures r.Err? <==> ProcessReport(sheets, from, to, combinedAt).Err?
    ensures r.Err? ==> r.error == ProcessReport(sheets, from, to, combinedAt).error
    ensures r.Ok? ==> var run := ProcessReport(sheets, from, to, combinedAt).value;
      && r.value["combined"] == run.combined
      && (processedAt == combinedAt ==> r.value["processed"] == run.processed)
      && (detailedAt == combinedAt ==> r.value["detailed"] == run.detailed)
    ensures r.Ok? ==> var t := Combine(sheets).value.table;
      && Processed(t).Ok? && DetailedOf(t).Ok?
      && r.value["processed"] == Stamped(Processed(t).value, StampFor("Processed", from, to, processedAt))
      && r.value["detailed"] == Stamped(DetailedOf(t).value, StampFor("ProcessedDetailed", from, to, detailedAt))
  {
    ProcessReportFails(sheets, from, to, combinedAt);
    var combined := CombineStreaming(sheets, from, to, combinedAt);
    if combined.Err? {
      return Err(combined.error);
    }
    var t := Combine(sheets).value.table;
    StampIrrelevant(t, StampFor("Combined", from, to, combinedAt));
    var processed := CreateProcessed(combined.value);
    if processed.Err? {
      return Err(processed.error);
    }
    // The detailed report reads the same records, so it cannot fail once the aggregate has not.
    var detailed := CreateDetailed(combined.value).value;
    var run := ProcessReport(sheets, from, to, combinedAt);
    assert run.Ok? && run.value.combined == combined.value;
    r := Ok(Results(combined.value,
                    Stamped(processed.value, StampFor("Processed", from, to, processedAt)),
                    Stamped(detailed, StampFor("ProcessedDetailed", from, to, detailedAt))));
  }

  /** The result map of the streaming pipeline. */
  function Results(combined: Table, processed: Table, detailed: Table): (m: map<string, Table>)
    ensures m.Keys == {"combined", "processed", "detailed"}
    ensures m["combined"] == combined && m["processed"] == processed && m["detailed"] == detailed
  {
    map["combined" := combined, "processed" := processed, "detailed" := detailed]
  }

  /** `save_reports_streaming`: the three results under their download names; looking up a
      result the map lacks is Python's `KeyError`, raised in the order the names are built. */
  function SaveStreaming(results: map<string, Table>, from: string, to: string, stamp: string)
    : (r: Result<map<string, Table>, ReportError>)
    ensures r.Ok? <==> {"combined", "processed", "detailed"} <= results.Keys
    ensures r.Ok? ==> r.value == SaveReports(results["combined"], results["processed"], results["detailed"], from, to, stamp)
  {
    if "combined" !in results then Err(MissingReport("combined"))
    else if "processed" !in results then Err(MissingReport("processed"))
    else if "detailed" !in results then Err(MissingReport("detailed"))
    else Ok(SaveReports(results["combined"], results["processed"], results["detailed"], from, to, stamp))
  }
}

=== FILE: tables.dfy ===
/** Data frames as the reports see them: named columns over rows of cells. */
module Tables {
  import opened Wrappers

  /** One spreadsheet cell. `Blank` is pandas' NaN (an empty cell); numbers are exact reals. */
  datatype Cell = Blank | Num(n: real) | Text(s: string)

  type Row = seq<Cell>

  /** A data frame: column labels and rows, in order. */
  datatype Table = Table(columns: seq<string>, rows: seq<Row>)

  /** Every row has one cell per column, as every pandas data frame does. */
  predicate WellFormed(t: Table) {
    forall i :: 0 <= i < |t.rows| ==> |t.rows[i]| == |t.columns|
  }

  /** The ways the reconciliation pipeline can fail. */
  datatype ReportError =
    | NoSheets                       // the workbook has no sheet to take the schema from
    | DuplicateColumn(name: string)  // inserting a metadata column whose label is already taken
    | MissingColumn(name: string)    // selecting or dropping a label the frame does not have
    | NonNumeric(name: string)       // text in a column the reports do arithmetic on
    | MixedPoNumbers                 // sorting a `Po Number` column that mixes numbers and text
    | MissingReport(key: string)     // looking up a report the streaming result does not hold

  /** An optional amount as a cell: a missing one is blank. */
  function OptCell(a: Option<real>): (c: Cell)
    ensures c.Blank? <==> a.None?
    ensures a.Some? ==> c == Num(a.value)
  {
    match a
    case None => Blank
    case Some(v) => Num(v)
  }

  /** The widest row: the column count pandas gives a ragged grid. */
  function Width(rows: seq<Row>): (w: nat)
    ensures forall i :: 0 <= i < |rows| ==> |rows[i]| <= w
    ensures |rows| == 0 ==> w == 0
    ensures |rows| > 0 ==> exists i :: 0 <= i < |rows| && |rows[i]| == w
  {
    if |rows| == 0 then 0
    else
      var w := Width(rows[..|rows| - 1]);
      if |rows[|rows| - 1]| > w then |rows[|rows| - 1]| else w
  }

  /** A short row filled out with blank cells to width `w`. */
  function PadRow(r: Row, w: nat): (p: Row)
    requires |r| <= w
    ensures |p| == w && p[..|r|] == r
    ensures forall i :: |r| <= i < w ==> p[i] == Blank
  {
    r + seq(w - |r|, _ => Blank)
  }

  function PadRows(rows: seq<Row>, w: nat): (p: seq<Row>)
    requires forall i :: 0 <= i < |rows| ==> |rows[i]| <= w
    ensures |p| == |rows|
    ensures forall i :: 0 <= i < |p| ==> |p[i]| == w && p[i][..|rows[i]|] == rows[i]
    ensures forall i, j :: 0 <= i < |p| && |rows[i]| <= j < w ==> p[i][j] == Blank
  {
    seq(|rows|, i requires 0 <= i < |rows| => PadRow(rows[i], w))
  }

  /** The position of the first column labelled `name`, as pandas' label lookup finds it. */
  function IndexOf(names: seq<string>, name: string): (r: Option<nat>)
    ensures r.None? <==> name !in names
    ensures r.Some? ==> r.value < |names| && names[r.value] == name
    ensures r.Some? ==> forall j :: 0 <= j < r.value ==> names[j] != name
  {
    if |names| == 0 then None
    else if names[0] == name then Some(0)
    else match IndexOf(names[1..], name)
      case None => None
      case Some(i) => Some(i + 1)
  }

  /** The positions of the columns whose label is not in `names`, in order. */
  function Kept(columns: seq<string>, names: seq<string>): (k: seq<nat>)
    ensures forall i :: 0 <= i < |k| ==> k[i] < |columns| && columns[k[i]] !in names
    ensures forall i, j :: 0 <= i < j < |k| ==> k[i] < k[j]
  {
    if |columns| == 0 then []
    else
      var n := |columns| - 1;
      var prefix := Kept(columns[..n], names);
      if columns[n] in names then prefix else prefix + [n]
  }

  /** Every column whose label is not dropped is kept. */
  lemma {:induction false} KeptHas(columns: seq<string>, names: seq<string>, c: nat)
    requires c < |columns| && columns[c] !in names
    ensures c in Kept(columns, names)
  {
    var n := |columns| - 1;
    if c < n {
      KeptHas(columns[..n], names, c);
    }
  }

  /** The cells of `row` at the given positions. */
  function Select(row: Row, positions: seq<nat>): (r: Row)
    requires forall i :: 0 <= i < |positions| ==> positions[i] < |row|
    ensures |r| == |positions|
    ensures forall i :: 0 <= i < |r| ==> r[i] == row[positions[i]]
  {
    seq(|positions|, i requires 0 <= i < |positions| => row[positions[i]])
  }

  /** The first of `names` that is not a label of `columns`. */
  function FirstMissing(names: seq<string>, columns: seq<string>): (r: Option<string>)
    ensures r.None? <==> forall n :: n in names ==> n in columns
    ensures r.Some? ==> r.value in names && r.value !in columns
  {
    if |names| == 0 then None
    else if names[0] !in columns then Some(names[0])
    else FirstMissing(names[1..], columns)
  }

  /** `DataFrame.drop(columns=names)`: raises on a label the frame lacks, otherwise removes every
      column carrying one of the labels and keeps the others in order. */
  function DropColumns(t: Table, names: seq<string>): (r: Result<Table, ReportError>)
    requires WellFormed(t)
    ensures r.Err? <==> exists n :: n in names && n !in t.columns
    ensures r.Ok? ==> WellFormed(r.value) && |r.value.rows| == |t.rows|
    ensures r.Ok? ==> forall c :: c in r.value.columns <==> c in t.columns && c !in names
    ensures r.Ok? ==> var keep := Kept(t.columns, names);
      && |r.value.columns| == |keep|
      && (forall i :: 0 <= i < |keep| ==> r.value.columns[i] == t.columns[keep[i]])
      && (forall i :: 0 <= i < |t.rows| ==> r.value.rows[i] == Select(t.rows[i], keep))
  {
    match FirstMissing(names, t.columns)
    case Some(n) => Err(MissingColumn(n))
    case None =>
      var keep := Kept(t.columns, names);
      var columns := KeptLabels(t.columns, names);
      Ok(Table(columns, seq(|t.rows|, i requires 0 <= i < |t.rows| => Select(t.rows[i], keep))))
  }

  /** The labels `drop` keeps, in order: exactly the labels not dropped. */
  function KeptLabels(columns: seq<string>, names: seq<string>): (r: seq<string>)
    ensures var keep := Kept(columns, names);
      && |r| == |keep| && (forall i :: 0 <= i < |keep| ==> r[i] == columns[keep[i]])
      && forall c :: c in r <==> c in columns && c !in names
  {
    var keep := Kept(columns, names);
    var r := seq(|keep|, i requires 0 <= i < |keep| => columns[keep[i]]);
    assert forall c :: c in columns && c !in names ==> c in r by {
      forall c | c in columns && c !in names
        ensures c in r
      {
        var j :| 0 <= j < |columns| && columns[j] == c;
        KeptHas(columns, names, j);
        var i :| 0 <= i < |keep| && keep[i] == j;
        assert r[i] == c;
      }
    }
    r
  }

  /** The three provenance columns both processors insert in front of every report. */
  const MetadataColumns: seq<string> := ["Report Type", "Date Range", "Generation Date"]

  /** The values of the provenance columns for one report. */
  datatype Stamp = Stamp(reportType: string, dateRange: string, generated: string)

  /** The `Date Range` value: `f'{from_date} to {to_date}'`. */
  function DateRange(from: string, to: string): (r: string)
    ensures |r| == |from| + 4 + |to|
    ensures r[..|from|] == from && r[|r| - |to|..] == to
    ensures r[|from|..|r| - |to|] == " to "
  {
    from + " to " + to
  }

  function StampCells(s: Stamp): (r: Row)
    ensures |r| == |MetadataColumns|
  {
    [Text(s.reportType), Text(s.dateRange), Text(s.generated)]
  }

  /** The three `DataFrame.insert` calls at positions 0, 1 and 2: each raises when its label is
      already a column; otherwise every row is prefixed with the stamp's values. */
  function AddStamp(t: Table, s: Stamp): (r: Result<Table, ReportError>)
    requires WellFormed(t)
    ensures r.Err? <==> exists n :: n in MetadataColumns && n in t.columns
    ensures r.Ok? ==> WellFormed(r.value)
    ensures r.Ok? ==> r.value.columns == MetadataColumns + t.columns
    ensures r.Ok? ==> |r.value.rows| == |t.rows|
    ensures r.Ok? ==> forall i :: 0 <= i < |t.rows| ==> r.value.rows[i] == StampCells(s) + t.rows[i]
  {
    if MetadataColumns[0] in t.columns then Err(DuplicateColumn(MetadataColumns[0]))
    else if MetadataColumns[1] in t.columns then Err(DuplicateColumn(MetadataColumns[1]))
    else if MetadataColumns[2] in t.columns then Err(DuplicateColumn(MetadataColumns[2]))
    else Ok(Table(MetadataColumns + t.columns, StampRows(t.rows, s)))
  }

  /** Whether stamping fails, and how, depends on the labels alone. */
  lemma AddStampFailsOnLabels(t: Table, u: Table, s: Stamp)
    requires WellFormed(t) && WellFormed(u) && t.columns == u.columns
    ensures AddStamp(t, s).Err? ==> AddStamp(u, s) == AddStamp(t, s)
  {
  }

  function StampRows(rows: seq<Row>, s: Stamp): (r: seq<Row>)
    ensures |r| == |rows|
    ensures forall i :: 0 <= i < |rows| ==> r[i] == StampCells(s) + rows[i]
  {
    seq(|rows|, i requires 0 <= i < |rows| => StampCells(s) + rows[i])
  }

  /** Stamping distributes over concatenation: stamping sheet by sheet is stamping the whole. */
  lemma StampRowsAppend(a: seq<Row>, b: seq<Row>, s: Stamp)
    ensures StampRows(a + b, s) == StampRows(a, s) + StampRows(b, s)
  {
  }

  /** Dropping the provenance columns right after inserting them gives back the frame. */
  lemma DropUndoesStamp(t: Table, s: Stamp)
    requires WellFormed(t)
    requires AddStamp(t, s).Ok?
    ensures DropColumns(AddStamp(t, s).value, MetadataColumns) == Ok(t)
  {
    var u := AddStamp(t, s).value;
    StampedKeeps(t, u);
    var r := DropColumns(u, MetadataColumns).value;
    DropStampedColumns(t, u, r);
    DropStampedRows(t, u, r, s);
  }

  lemma DropStampedColumns(t: Table, u: Table, r: Table)
    requires u.columns == MetadataColumns + t.columns
    requires var keep := Kept(u.columns, MetadataColumns);
      && |keep| == |t.columns| && (forall j :: 0 <= j < |keep| ==> keep[j] == j + 3)
      && |r.columns| == |keep| && (forall i :: 0 <= i < |keep| ==> r.columns[i] == u.columns[keep[i]])
    ensures r.columns == t.columns
  {
    var keep := Kept(u.columns, MetadataColumns);
    forall i | 0 <= i < |t.columns|
      ensures r.columns[i] == t.columns[i]
    {
      assert keep[i] == i + 3;
    }
  }

  lemma DropStampedRows(t: Table, u: Table, r: Table, s: Stamp)
    requires WellFormed(t) && WellFormed(u) && |u.rows| == |t.rows| && |r.rows| == |t.rows|
    requires forall i :: 0 <= i < |t.rows| ==> u.rows[i] == StampCells(s) + t.rows[i]
    requires var keep := Kept(u.columns, MetadataColumns);
      && |keep| == |t.columns| && (forall j :: 0 <= j < |keep| ==> keep[j] == j + 3)
      && (forall i :: 0 <= i < |t.rows| ==> r.rows[i] == Select(u.rows[i], keep))
    ensures r.rows == t.rows
  {
    var keep := Kept(u.columns, MetadataColumns);
    forall i | 0 <= i < |t.rows|
      ensures r.rows[i] == t.rows[i]
    {
      SelectPastStamp(StampCells(s), t.rows[i], keep);
    }
  }

  /** A stamped frame has every metadata label, and its kept positions are those past the stamp. */
  lemma StampedKeeps(t: Table, u: Table)
    requires forall n :: n in MetadataColumns ==> n !in t.columns
    requires u.columns == MetadataColumns + t.columns
    ensures FirstMissing(MetadataColumns, u.columns).None?
    ensures var keep := Kept(u.columns, MetadataColumns);
      |keep| == |t.columns| && forall j :: 0 <= j < |keep| ==> keep[j] == j + 3
  {
    forall i | 0 <= i < |t.columns|
      ensures t.columns[i] !in MetadataColumns
    {
      assert t.columns[i] in t.columns;
    }
    KeptAfterMetadata(t.columns);
    assert u.columns[0] == MetadataColumns[0];
    assert u.columns[1] == MetadataColumns[1];
    assert u.columns[2] == MetadataColumns[2];
  }

  /** Selecting the positions after a three-cell stamp recovers the stamped row. */
  lemma SelectPastStamp(stamp: Row, row: Row, keep: seq<nat>)
    requires |stamp| == 3 && |keep| == |row|
    requires forall j :: 0 <= j < |keep| ==> keep[j] == j + 3
    ensures Select(stamp + row, keep) == row
  {
    var r := Select(stamp + row, keep);
    forall j | 0 <= j < |row|
      ensures r[j] == row[j]
    {
      assert r[j] == (stamp + row)[j + 3];
    }
  }

  /** Columns all carrying dropped labels leave nothing to keep. */
  lemma {:induction false} KeptNone(cs: seq<string>, names: seq<string>)
    requires forall i :: 0 <= i < |cs| ==> cs[i] in names
    ensures Kept(cs, names) == []
  {
    if |cs| > 0 {
      KeptNone(cs[..|cs| - 1], names);
    }
  }

  /** Behind columns that all carry dropped labels, the columns kept are exactly the others. */
  lemma {:induction false} KeptAfter(pre: seq<string>, cs: seq<string>, names: seq<string>)
    requires forall i :: 0 <= i < |pre| ==> pre[i] in names
    requires forall i :: 0 <= i < |cs| ==> cs[i] !in names
    ensures var k := Kept(pre + cs, names);
      |k| == |cs| && forall i :: 0 <= i < |k| ==> k[i] == i + |pre|
  {
    var all := pre + cs;
    if |cs| == 0 {
      assert all == pre;
      KeptNone(all, names);
    } else {
      var n := |cs| - 1;
      var m := |all| - 1;
      KeptAfter(pre, cs[..n], names);
      var before := Kept(pre + cs[..n], names);
      assert Kept(all, names) == before + [m] by {
        assert all[..m] == pre + cs[..n];
        assert all[m] == cs[n];
      }
    }
  }

  /** In `MetadataColumns + cs`, with no metadata label among `cs`, the columns kept are exactly
      those of `cs`. */
  lemma KeptAfterMetadata(cs: seq<string>)
    requires forall i :: 0 <= i < |cs| ==> cs[i] !in MetadataColumns
    ensures var k := Kept(MetadataColumns + cs, MetadataColumns);
      |k| == |cs| && forall i :: 0 <= i < |k| ==> k[i] == i + 3
  {
    KeptAfter(MetadataColumns, cs, MetadataColumns);
  }
}

=== FILE: text.dfy ===
/** The few string operations of Python's `str` that the reports and the fetcher rely on. */
module Text {
  import opened Wrappers

  /** Python's `str.isspace()`: the characters `str.strip()` removes. */
  predicate IsSpace(c: char) {
    || ('\t' <= c <= '\r')              // tab, line feed, vertical tab, form feed, carriage return
    || ('\U{1c}' <= c <= '\U{1f}')      // the four information separators
    || c == ' ' || c == '\U{85}' || c == '\U{a0}' || c == '\U{1680}'
    || ('\U{2000}' <= c <= '\U{200a}')
    || c == '\U{2028}' || c == '\U{2029}' || c == '\U{202f}' || c == '\U{205f}' || c == '\U{3000}'
  }

  /** The number of whitespace characters `s` starts with. */
  function LeadingSpaces(s: string): (n: nat)
    ensures n <= |s|
  {
    if |s| > 0 && IsSpace(s[0]) then 1 + LeadingSpaces(s[1..]) else 0
  }

  /** The number of whitespace characters `s` ends with. */
  function TrailingSpaces(s: string): (n: nat)
    ensures n <= |s|
  {
    if |s| > 0 && IsSpace(s[|s| - 1]) then 1 + TrailingSpaces(s[..|s| - 1]) else 0
  }

  /** `str.lstrip()`. */
  function TrimLeft(s: string): string {
    s[LeadingSpaces(s)..]
  }

  /** `str.rstrip()`. */
  function TrimRight(s: string): string {
    s[..|s| - TrailingSpaces(s)]
  }

  /** Python's `str.strip()` with no argument; `TrimSpec` states what it yields. */
  function Trim(s: string): string {
    TrimRight(TrimLeft(s))
  }

  /** The leading run is whitespace and is followed by a character that is not. */
  lemma {:induction false} LeadingSpacesSpec(s: string)
    ensures forall i :: 0 <= i < LeadingSpaces(s) ==> IsSpace(s[i])
    ensures LeadingSpaces(s) < |s| ==> !IsSpace(s[LeadingSpaces(s)])
  {
    if |s| > 0 && IsSpace(s[0]) {
      var t := s[1..];
      LeadingSpacesSpec(t);
      assert forall i :: 0 <= i < LeadingSpaces(t) ==> s[i + 1] == t[i];
    }
  }

  /** The trailing run is whitespace and is preceded by a character that is not. */
  lemma {:induction false} TrailingSpacesSpec(s: string)
    ensures forall i :: |s| - TrailingSpaces(s) <= i < |s| ==> IsSpace(s[i])
    ensures TrailingSpaces(s) < |s| ==> !IsSpace(s[|s| - TrailingSpaces(s) - 1])
  {
    if |s| > 0 && IsSpace(s[|s| - 1]) {
      var t := s[..|s| - 1];
      TrailingSpacesSpec(t);
      assert forall i :: |t| - TrailingSpaces(t) <= i < |t| ==> s[i] == t[i];
    }
  }

  /** `strip()` yields the slice of `s` between its leading and its trailing whitespace: everything
      in front of it and behind it is whitespace, and it neither starts nor ends with whitespace. */
  lemma TrimSpec(s: string)
    ensures var r := Trim(s); var k := LeadingSpaces(s);
      && k + |r| <= |s| && r == s[k..k + |r|]
      && (forall i :: 0 <= i < k ==> IsSpace(s[i]))
      && (forall i :: k + |r| <= i < |s| ==> IsSpace(s[i]))
      && (|r| > 0 ==> !IsSpace(r[0]) && !IsSpace(r[|r| - 1]))
  {
    var k := LeadingSpaces(s);
    var l := s[k..];
    var r := Trim(s);
    LeadingSpacesSpec(s);
    assert r == s[k..k + |r|];
    SpacesBehind(s, k);
    if |r| > 0 {
      assert r[0] == s[k];
      LastKept(l);
    }
  }

  /** What `rstrip()` drops from a suffix of `s` is whitespace at the end of `s`. */
  lemma SpacesBehind(s: string, k: nat)
    requires k <= |s|
    ensures forall i :: k + |TrimRight(s[k..])| <= i < |s| ==> IsSpace(s[i])
  {
    var l := s[k..];
    TrailingSpacesSpec(l);
    forall i | k + |TrimRight(l)| <= i < |s|
      ensures IsSpace(s[i])
    {
      assert s[i] == l[i - k];
    }
  }

  /** `rstrip()` keeps no whitespace at the end. */
  lemma LastKept(l: string)
    requires |TrimRight(l)| > 0
    ensures !IsSpace(TrimRight(l)[|TrimRight(l)| - 1])
  {
    TrailingSpacesSpec(l);
    assert TrimRight(l)[|TrimRight(l)| - 1] == l[|l| - TrailingSpaces(l) - 1];
  }

  /** A string without surrounding whitespace is left alone by `strip()`. */
  lemma TrimUnchanged(s: string)
    requires |s| > 0 ==> !IsSpace(s[0]) && !IsSpace(s[|s| - 1])
    ensures LeadingSpaces(s) == 0 && TrailingSpaces(s) == 0
    ensures Trim(s) == s
  {
    assert LeadingSpaces(s) == 0;
    assert TrailingSpaces(s) == 0;
  }

  /** Stripping twice is stripping once. */
  lemma TrimIdempotent(s: string)
    ensures Trim(Trim(s)) == Trim(s)
  {
    TrimSpec(s);
    TrimUnchanged(Trim(s));
  }

  /** `str.upper()` on the ASCII letters; every other character is kept. */
  function UpperChar(c: char): (u: char)
    ensures 'a' <= c <= 'z' ==> u as int == c as int - 32
    ensures !('a' <= c <= 'z') ==> u == c
  {
    if 'a' <= c <= 'z' then (c as int - 32) as char else c
  }

  function Upper(s: string): (r: string)
    ensures |r| == |s|
    ensures forall i :: 0 <= i < |s| ==> r[i] == UpperChar(s[i])
  {
    if |s| == 0 then "" else [UpperChar(s[0])] + Upper(s[1..])
  }

  /** `s.replace(c, '')`: `s` with every occurrence of `c` removed, all other characters kept in order. */
  function RemoveAll(s: string, c: char): (r: string)
    ensures c !in r
    ensures |r| <= |s|
    ensures forall x :: x != c ==> multiset(r)[x] == multiset(s)[x]
    ensures c !in s ==> r == s
  {
    if |s| == 0 then ""
    else
      var rest := RemoveAll(s[1..], c);
      assert s == [s[0]] + s[1..];
      if s[0] == c then rest else [s[0]] + rest
  }

  /** Removal works piece by piece: the characters kept from `a + b` are those kept from `a`
      followed by those kept from `b`, so the order of the kept characters is the input's. */
  lemma {:induction false} RemoveAllAppend(a: string, b: string, c: char)
    ensures RemoveAll(a + b, c) == RemoveAll(a, c) + RemoveAll(b, c)
  {
    if |a| == 0 {
      assert a + b == b;
    } else {
      assert (a + b)[1..] == a[1..] + b;
      assert (a + b)[0] == a[0];
      RemoveAllAppend(a[1..], b, c);
    }
  }

  /** On one character, removal drops exactly `c`. */
  lemma RemoveAllSingle(x: char, c: char)
    ensures RemoveAll([x], c) == if x == c then [] else [x]
  {
  }

  predicate IsDigit(c: char) {
    '0' <= c <= '9'
  }

  predicate AllDigits(s: string) {
    forall i :: 0 <= i < |s| ==> IsDigit(s[i])
  }

  function DigitChar(d: nat): (c: char)
    requires d < 10
    ensures IsDigit(c)
  {
    ('0' as int + d) as char
  }

  function DigitValue(c: char): (d: nat)
    requires IsDigit(c)
    ensures d < 10
  {
    c as int - '0' as int
  }

  /** The value of a run of decimal digits, most significant first. */
  function DigitsValue(s: string): nat
    requires AllDigits(s)
  {
    if |s| == 0 then 0 else DigitsValue(s[..|s| - 1]) * 10 + DigitValue(s[|s| - 1])
  }

  /** `str(n)` for a natural number: its shortest decimal spelling. */
  function NatToString(n: nat): (s: string)
    ensures |s| > 0 && AllDigits(s)
    ensures |s| > 1 ==> s[0] != '0'
  {
    if n < 10 then [DigitChar(n)] else NatToString(n / 10) + [DigitChar(n % 10)]
  }

  /** `str(n)` for any integer: a minus sign before the digits of a negative number. */
  function IntToString(n: int): (s: string)
    ensures |s| > 0
  {
    if n < 0 then "-" + NatToString(-n) else NatToString(n)
  }

  /** The four ASCII information separators: whitespace to `str.strip()`, but not skipped by
      `int()`, which skips only the other whitespace characters. */
  predicate IsSeparator(c: char) {
    '\U{1c}' <= c <= '\U{1f}'
  }

  predicate NoSeparator(s: string) {
    forall i :: 0 <= i < |s| ==> !IsSeparator(s[i])
  }

  /** Python's `int(s)` on text: optional surrounding whitespace other than the separators, an
      optional sign, then at least one ASCII digit. `None` is the `ValueError` the source lets
      propagate. */
  function ParseInt(s: string): Option<int> {
    var k := LeadingSpaces(s);
    var j := |s| - TrailingSpaces(s[k..]);
    if NoSeparator(s[..k]) && NoSeparator(s[j..]) then ParseTrimmed(s[k..j]) else None
  }

  /** A separator in front of a number is stripped by `strip()` but rejected by `int()`. */
  lemma SeparatorNotSkipped(t: string)
    requires |t| > 0 && AllDigits(t)
    ensures Trim("\U{1c}" + t) == t
    ensures ParseInt("\U{1c}" + t) == None
  {
    var s := "\U{1c}" + t;
    assert s[1..] == t;
    assert IsDigit(t[0]) && IsDigit(t[|t| - 1]);
    TrimUnchanged(t);
    assert LeadingSpaces(s) == 1;
    assert IsSeparator(s[..1][0]);
  }

  /** `int()` on text already stripped of surrounding whitespace. */
  function ParseTrimmed(t: string): (r: Option<int>)
    ensures r.Some? ==> |t| > 0
  {
    if |t| > 0 && (t[0] == '-' || t[0] == '+') then
      var digits := t[1..];
      if |digits| > 0 && AllDigits(digits) then
        var v: int := DigitsValue(digits);
        Some(if t[0] == '-' then -v else v)
      else None
    else if |t| > 0 && AllDigits(t) then Some(DigitsValue(t))
    else None
  }

  lemma {:induction false} DigitsOfNat(n: nat)
    ensures DigitsValue(NatToString(n)) == n
  {
    if n >= 10 {
      DigitsOfNat(n / 10);
      var s := NatToString(n);
      assert s[..|s| - 1] == NatToString(n / 10);
    }
  }

  /** `int(str(n)) == n`: the decimal spelling of an integer reads back as that integer. */
  lemma IntRoundTrip(n: int)
    ensures ParseInt(IntToString(n)) == Some(n)
  {
    if n < 0 {
      NegativeRoundTrip(n);
    } else {
      NatRoundTrip(n);
    }
  }

  lemma NegativeRoundTrip(n: int)
    requires n < 0
    ensures ParseInt("-" + NatToString(-n)) == Some(n)
  {
    DigitsOfNat(-n);
    ParseNegative(NatToString(-n));
  }

  lemma NatRoundTrip(n: nat)
    ensures ParseInt(NatToString(n)) == Some(n)
  {
    DigitsOfNat(n);
    ParseDigits(NatToString(n));
  }

  /** A run of digits reads as its value. */
  lemma ParseDigits(t: string)
    requires |t| > 0 && AllDigits(t)
    ensures ParseInt(t) == Some(DigitsValue(t))
  {
    assert IsDigit(t[0]) && IsDigit(t[|t| - 1]);
    TrimUnchanged(t);
    ParseUnpadded(t);
  }

  /** A minus sign before a run of digits reads as the negated value. */
  lemma ParseNegative(t: string)
    requires |t| > 0 && AllDigits(t)
    ensures ParseInt("-" + t) == Some(-(DigitsValue(t) as int))
  {
    NegativeUnstripped(t);
    ParseUnpadded("-" + t);
    NegativeDigits(t);
  }

  /** Text without surrounding whitespace is read as it stands. */
  lemma ParseUnpadded(s: string)
    requires LeadingSpaces(s) == 0 && TrailingSpaces(s) == 0
    ensures ParseInt(s) == ParseTrimmed(s)
  {
    assert s[0..] == s;
    assert s[0..|s|] == s;
  }

  lemma NegativeUnstripped(t: string)
    requires |t| > 0 && AllDigits(t)
    ensures LeadingSpaces("-" + t) == 0 && TrailingSpaces("-" + t) == 0
  {
    var s := "-" + t;
    assert s[|s| - 1] == t[|t| - 1];
    TrimUnchanged(s);
  }

  lemma NegativeDigits(t: string)
    requires |t| > 0 && AllDigits(t)
    ensures ParseTrimmed("-" + t) == Some(-(DigitsValue(t) as int))
  {
    var s := "-" + t;
    assert s[0] == '-' && s[1..] == t;
  }
}

=== FILE: wrappers.dfy ===
/** Failure-carrying values shared by every module of the model. */
module Wrappers {

  /** A value that may be absent: a missing cell, a non-finite quotient, a lookup that found nothing. */
  datatype Option<+T> = None | Some(value: T) {
    function GetOr(default: T): T {
      match this
      case Some(v) => v
      case None => default
    }
  }

  /** The outcome of an operation that may raise: `Err` carries what the source raises. */
  datatype Result<+T, +E> = Ok(value: T) | Err(error: E) {
    predicate IsFailure() {
      Err?
    }

    function PropagateFailure<U>(): Result<U, E>
      requires Err?
    {
      Err(error)
    }

    function Extract(): T
      requires Ok?
    {
      value
    }
  }
}
